=== FILE: README.md ===
# csv_transform in Dafny

A Dafny model of the core of `csv_transform`. The package turns a JSON
map file into a row transformer for CSV data and has three steps:

- **Resource resolution** (`csv_transform/resource.py`). Each entry of
  the map file's `resources` object names a kind (`file` or `module`),
  a `name` and an `extra` options bag.
  - The kind tag is stripped, upper-cased and matched against
    `ResourceType`. It defaults to `file`; an unknown tag raises
    `InvalidResourceError`.
  - A file resource pops `location` (default `"."`) out of the caller's
    own `extra` dict. It joins the location with the name and opens the
    file with the remaining options.
  - A module resource imports its name.
- **Value-map compilation** (`csv_transform/mapper.py`). Each entry of
  `maps` compiles into a `ValueMap`.
  - With no `apply`, or an empty one, the entry becomes the pass-through
    `lambda *args: args`.
  - Otherwise the apply `type` tag is parsed: it defaults to
    `builtin-function`, `-` becomes `_`, and the result is upper-cased.
    An unknown tag raises `ApplyTypeError`.
  - The tag then selects an invoker class through `invoke_map`. That
    table has no entry for `RESOURCE_METHOD`.
- **Invokers** (`csv_transform/invoker.py`). These are closures over
  `target`, `args` and a function resolved once, by name, from the
  builtins namespace.
  - The function invoker calls `func(row[target], **args)` and returns
    None.
  - The method invoker returns that call's result.
  - The resource-method invoker is a stub.
- **Streaming**. `CSVMapper.apply` turns each input row into
  `[m(row) for m in mappings]`, one row at a time. The first exception
  ends the stream.

The model follows the source's own form:

- Tags, specs, invokers and value maps are datatypes. Parsing and
  compilation are functions with `Result` outcomes for the exceptions
  the code raises on the JSON shapes the model represents (the shapes it
  does not represent are listed under "Left out").
- The options bag that the file injestor changes in place is a class
  (`Resources.Options`, with `Pop`), shared with the caller.
  `FileResourceInjestor` is a class built by `Create`.
- `Resource.from_spec` (`ResourceFromSpec`) and the resolution loop of
  `from_mapfile` (`ResolveResources`) are methods. They are proved
  against the functions `ResourceOutcome` and `ResolveAll`. Their frame
  says exactly which dicts lose `location`: those of the file resources
  among the specs resolved up to and including the first failure.
- `CSVMapper` holds its compiled maps. Its `Apply` loop and its per-row
  `MapOneRow` loop are proved equal to the stream functions `MapStream`
  and `MapRow`.

Opening files, importing modules and calling builtins are foreign. They
are parameters:

- `Env` gives what `open` and `import_module` do.
- `PyObj` is the builtins namespace: a callable (or not) with named
  attributes. `Fn` is what calling a resolved function does.

The code behaves as follows, and the model follows it:

- A pass-through map yields the argument tuple `(row,)` as one column
  (`RowTuple(row)`). The output row is therefore not the input row
  unchanged: it is one copy of the whole row per map.
- The function invoker discards the call's result.
- `RESOURCE_METHOD` fails with `KeyError` at compile time.
- Resources reach `ValueMap.from_spec` as a list, not an id-keyed dict
  (see Findings).

## Model

| member | source | states |
|---|---|---|
| PyRuntime.Index | csv_transform/invoker.py:66-67 | `row[i]` succeeds exactly for `-len <= i < len`; a negative index counts from the end; otherwise IndexError(i) |
| PyRuntime.Strip | csv_transform/resource.py:62 | `str.strip()` returns the run of the input that starts after its leading whitespace and has only whitespace after it; the result has no whitespace at either end |
| PyRuntime.Upper | csv_transform/resource.py:62 | `str.upper` keeps the length and upper-cases each character in place (ASCII letters) |
| PyRuntime.Replace | csv_transform/mapper.py:39 | `str.replace('-', '_')` keeps the length and replaces exactly the occurrences of the one character |
| PyRuntime.Collect | csv_transform/mapper.py:60-61 | a list comprehension whose elements may raise yields all values in order exactly when none raised, else the first exception |
| Resources.ParseResourceType | csv_transform/resource.py:61-64 | the parsed kind's name equals the stripped, upper-cased tag (default "file"); failure means no member matches, and InvalidResourceError names the raw tag |
| Resources.ResourceMap | csv_transform/resource.py:46-49 | `resource_map` has an entry for every resource kind: FILE gets the file injestor, MODULE the module injestor |
| Resources.Join | csv_transform/resource.py:23 | POSIX `os.path.join`: an absolute name replaces the location; otherwise the result is the location, then one "/" exactly when the location is non-empty and does not end in "/", then the name |
| Resources.LocationOf | csv_transform/resource.py:22-23 | the popped `location` defaults to "."; the join succeeds exactly when the location is a string and then uses it; otherwise it raises TypeError("expected str, bytes or os.PathLike object, not T"), where T is the Python type name of the JSON value (NoneType, bool, int, list or dict) |
| Resources.Options.Pop | csv_transform/resource.py:22 | `dict.pop(key, default)`: returns the old value or the default; the key is gone afterwards and nothing else changes |
| Resources.FileResourceInjestor.Create | csv_transform/resource.py:21-24 | `location` is removed from the caller's dict even when the join then fails; on success the filename is the join and the extras are the caller's own dict |
| Resources.FileResourceInjestor.Injest | csv_transform/resource.py:26-27 | opens the joined filename with the options left in the dict |
| Resources.OpenIn | csv_transform/resource.py:27 | opening succeeds exactly when the environment raises nothing; the content records path and options |
| Resources.ModuleContent | csv_transform/resource.py:30-37 | a module resource succeeds exactly when the import raises nothing, and is then the imported module; otherwise it fails with the import's own exception |
| Resources.ResourceFromSpec | csv_transform/resource.py:59-73 | Resource.from_spec returns `ResourceOutcome` of the bag as it was, and leaves the bag with `location` removed exactly when the kind is FILE |
| ResourceFacts.ResourceTagPaddingAndCaseIgnored | csv_transform/resource.py:62 | surrounding whitespace and letter case do not matter in a resource tag (" Module " gives MODULE) |
| ResourceFacts.HyphenKeptByNormalization | csv_transform/resource.py:62 | resource tags get no hyphen handling: a "-" survives strip and upper |
| ResourceFacts.ResourceMapFallbackUnreachable | csv_transform/resource.py:69 | every resource kind has a `resource_map` entry, so the FileResourceInjestor fallback is never used |
| ResourceFacts.ResourceKeepsIdAndKind | csv_transform/resource.py:73 | a resolved resource carries the given id and the parsed kind |
| ResourceFacts.TagCheckedBeforeEffects | csv_transform/resource.py:61-64 | an invalid tag fails with InvalidResourceError before anything is opened or imported, whatever the environment |
| ResourceFacts.FileResourcePathAndOptions | csv_transform/resource.py:66-71 | a file resource opens join(location, name or "default") with every option except `location`, unchanged |
| ResourceFacts.DefaultLocationIsCurrentDirectory | csv_transform/resource.py:22-23 | with no `location`, a relative name n is opened as "./n" |
| ResourceFacts.ModuleResourceIgnoresExtra | csv_transform/resource.py:32-34 | a module resource ignores the options bag and its content is the module named (default "default") |
| ResourceFacts.ExtrasAfterRemovesOnlyLocation | csv_transform/resource.py:22-24 | the caller's bag loses `location` for a file resource and nothing else; other kinds leave it as it was |
| Invokers.GetAttr | csv_transform/invoker.py:62 | `getattr` yields the attribute when present, AttributeError naming it when absent, TypeError when the name is missing |
| Invokers.NewBuiltinFunctionInvoker | csv_transform/invoker.py:60-64 | builds exactly when `name` resolves on the namespace; keeps that function, `target` and the spec's `args` |
| Invokers.NewBuiltinMethodInvoker | csv_transform/invoker.py:72-77 | builds exactly when `source` and then `name` on it resolve; a bad `source` is reported first |
| Invokers.NewResourceMethodInvoker | csv_transform/invoker.py:85-86 | the resource-method stub's constructor stores nothing and never fails |
| Invokers.Construct | csv_transform/mapper.py:43-44 | instantiating the class that `invoke_map` selected runs that class's `__init__`: the builtin kinds build exactly as NewBuiltinFunctionInvoker / NewBuiltinMethodInvoker, failure included, the stub kind gives the stub |
| Invokers.Call | csv_transform/invoker.py:66-89 | IndexError for an out-of-range target comes first; a non-callable raises TypeError; the call's exception propagates; the function invoker yields None, the method invoker the call's value, the stub None |
| InvokerFacts.CallReadsOnlyTarget | csv_transform/invoker.py:67 | two rows that agree on the target cell give the same outcome |
| InvokerFacts.BuiltinFunctionAppliesNamedFunction | csv_transform/invoker.py:58-67 | a built function invoker calls the resolved builtin on `row[target]` with the spec's `args` and returns None |
| InvokerFacts.BuiltinMethodReturnsResult | csv_transform/invoker.py:70-80 | a built method invoker returns `source.name(row[target], **args)` with the spec's `args` |
| InvokerFacts.ResolutionFailsAtConstruction | csv_transform/invoker.py:60-62 | an unknown function name fails at construction with AttributeError |
| InvokerFacts.MethodResolutionFailsAtConstruction | csv_transform/invoker.py:72-75 | an unknown source or method name fails at construction, naming whichever is missing first |
| InvokerFacts.MethodNameMissingIsTypeError | csv_transform/invoker.py:74-75 | a method spec without `name` fails at construction with getattr's TypeError once `source` resolves |
| InvokerFacts.ResourceMethodStubReturnsNone | csv_transform/invoker.py:83-89 | the resource-method stub returns None on every row |
| Mapper.ParseApplyType | csv_transform/mapper.py:38-41 | the parsed type's name equals the tag with "-" as "_" upper-cased (default "builtin-function"); otherwise ApplyTypeError names the raw tag |
| Mapper.InvokeMap | csv_transform/mapper.py:16-19 | `invoke_map` has entries exactly for BUILTIN_FUNCTION and BUILTIN_METHOD, each to its own invoker class; RESOURCE_METHOD has none |
| Mapper.Eval | csv_transform/mapper.py:26-27 | a pass-through yields `(row,)`; an invoker map yields its invoker's call |
| Mapper.Truthy | csv_transform/mapper.py:35 | `not apply` is false exactly when the apply dict is not empty |
| Mapper.RequiredResources | csv_transform/mapper.py:31-32 | one entry per id in `uses`, in order: the resource for a declared id, None for an undeclared one |
| Mapper.RequiredResourcesFromList | csv_transform/mapper.py:32 | on a list of resources the lookup raises AttributeError exactly when `uses` is not empty |
| Mapper.CompileApply | csv_transform/mapper.py:34-45 | an absent or empty `apply` gives the pass-through; a bad tag gives the parse error; RESOURCE_METHOD gives KeyError; a builtin tag gives exactly what constructing its `invoke_map` class gives, its failure included |
| Mapper.ValueMapFromSpec | csv_transform/mapper.py:29-45 | no or empty `apply` compiles to the pass-through; a compiled invoker is never the stub, reads `target` (default 0) and keeps the spec's `args` |
| Mapper.ValueMapFromListResources | csv_transform/mapper.py:30-32 | with resources given as a list, any entry that lists `uses` fails with AttributeError |
| Mapper.Register | csv_transform/mapper.py:30 | the id-keyed resources dict that `from_spec` declares: its keys are exactly the declared ids, and each id holds the resource resolved from its spec (the ids are the keys of one JSON object) |
| Mapper.CompileMaps | csv_transform/mapper.py:61 | compilation succeeds exactly when every entry compiles, giving one value map per entry in declaration order; otherwise it fails with the exception of the first entry that fails, all earlier entries having compiled |
| Mapper.MapRow | csv_transform/mapper.py:55 | one value per map in map order when all succeed; otherwise the exception of the first failing map |
| Mapper.MapStream | csv_transform/mapper.py:53-55 | one output row per input row, in input order, each the row's MapRow, until the first row that raises, whose exception ends the stream |
| Mapper.MapfileMapsAsWritten | csv_transform/mapper.py:58-62 | `from_mapfile` as written: a failing resource ends it with that resource's exception (its agreement with the id-keyed version is AsWrittenAgreesWithoutUses) |
| Mapper.MapfileMaps | csv_transform/mapper.py:58-62 | `from_mapfile` with resources keyed by id: a failing resource ends it with that exception; otherwise it is CompileMaps over the resolved resources, so one value map per entry in order, or the first failing entry's exception |
| Mapper.CSVMapper.FromMapfile | csv_transform/mapper.py:57-62 | resolves the resources, then compiles the maps against them keyed by id; the mapper holds exactly those maps; only dicts up to the first failing resource lose `location` |
| Mapper.CSVMapper.MapOneRow | csv_transform/mapper.py:55 | the loop over the maps equals MapRow |
| Mapper.CSVMapper.Apply | csv_transform/mapper.py:53-55 | the generator consumed to its end equals MapStream over the rows |
| Mapper.ResolveResources | csv_transform/mapper.py:59-60 | resolving every declared resource in order equals ResolveAll on the bags as they were; exactly the processed file resources lose `location` |
| Mapper.StreamAppendsOneRow | csv_transform/mapper.py:54-55 | one more row after an unfailed stream adds that row's output or ends the stream with its exception |
| Mapper.StreamStopsAtFailure | csv_transform/mapper.py:54-55 | after a failing row no later row changes the stream |
| MapperFacts.NormalizeApplyTagIdempotent | csv_transform/mapper.py:39 | normalising a normalised apply tag changes nothing |
| MapperFacts.ParseApplyByMemberName | csv_transform/mapper.py:39 | a tag that normalises to a member's name selects that member |
| MapperFacts.ApplyTagsAlike | csv_transform/mapper.py:39 | case and "-" versus "_" do not matter: tags that normalise alike both parse to the same type or are both rejected |
| MapperFacts.MissingApplyTagIsBuiltinFunction | csv_transform/mapper.py:39 | a missing `type` selects BUILTIN_FUNCTION |
| MapperFacts.ApplyTagWithLeadingSpaceRejected | csv_transform/mapper.py:39-41 | apply tags are not stripped: a leading space makes the tag unknown |
| MapperFacts.UnknownApplyTagRejected | csv_transform/mapper.py:38-41 | a map entry with an unknown tag fails with ApplyTypeError naming the raw tag |
| MapperFacts.ResourceMethodFailsAtDispatch | csv_transform/mapper.py:43 | "resource-method" parses, but compiling it fails with KeyError for the missing `invoke_map` entry, not with ApplyTypeError |
| MapperFacts.PassThroughCopiesWholeRow | csv_transform/mapper.py:35-36 | an entry without `apply` compiles to the pass-through, which yields `(row,)` whatever `target` and `uses` say |
| MapperFacts.FunctionTagBuildsFunctionInvoker | csv_transform/mapper.py:16-19 | through `invoke_map`, an entry whose tag parses to BUILTIN_FUNCTION compiles exactly as `BuiltinFunctionInvoker(target, required_resources, apply)`, its failure included |
| MapperFacts.MethodTagBuildsMethodInvoker | csv_transform/mapper.py:16-19 | through `invoke_map`, an entry whose tag parses to BUILTIN_METHOD compiles exactly as `BuiltinMethodInvoker(target, required_resources, apply)`, its failure included |
| MapperFacts.DefaultApplyIsBuiltinFunction | csv_transform/mapper.py:39-44 | an `apply` without `type` compiles exactly as a builtin function invoker on `target` (default 0) |
| MapperFacts.CompiledFunctionReadsTarget | csv_transform/mapper.py:33-44 | a compiled BUILTIN_FUNCTION map succeeds on a row exactly when the named builtin succeeds on its target cell with the spec's `args` |
| MapperFacts.CompiledMethodReadsTarget | csv_transform/mapper.py:33-44 | a compiled BUILTIN_METHOD map gives on a row exactly what `source.name` gives on its target cell with the spec's `args` |
| MapperFacts.ResolvedKeysAreDeclaredIds | csv_transform/mapper.py:59-60 | the resolved resources are keyed by exactly the declared ids |
| MapperFacts.ResolvedResourceIsItsOutcome | csv_transform/mapper.py:60 | the resource under an id is Resource.from_spec of its spec and carries that id |
| MapperFacts.ResolutionReportsFirstFailure | csv_transform/mapper.py:60 | a failed resolution reports the exception of the first failing spec; all earlier specs resolved |
| MapperFacts.OutputRowsAreColumnwise | csv_transform/mapper.py:55 | every output row has one column per map, and column i is map i on the input row at the same position |
| MapperFacts.StreamOfPrefixIsPrefix | csv_transform/mapper.py:53-55 | the output for a prefix of the rows is a prefix of the whole output, and a failure in the prefix is the stream's failure |
| MapperFacts.PassThroughMapperCopiesRows | csv_transform/mapper.py:36-55 | a mapper of pass-throughs never fails and turns each row into one `(row,)` per map |
| MapperFacts.ListOfResourcesRejectsUses | csv_transform/mapper.py:60-61 | as written, once the resources resolve, the first entry that lists `uses` makes `from_mapfile` fail with AttributeError, provided every earlier entry compiles |
| MapperFacts.ListAndMapAgreeWithoutUses | csv_transform/mapper.py:31-32 | an entry without `uses` compiles alike against the list of resources and against the id-keyed dict |
| MapperFacts.AsWrittenAgreesWithoutUses | csv_transform/mapper.py:58-62 | a map file in which no entry lists `uses` builds the same maps as written and keyed by id |
| MapperFacts.PassThroughMapfileCompiles | csv_transform/mapper.py:58-62 | keyed by id, a map file whose resources resolve and whose entries have no `apply` compiles to pass-throughs, whatever `uses` they list |
| MapperFacts.ListedResourcesRejectUses | csv_transform/mapper.py:31-32 | against a list of resources, an entry that lists `uses`, preceded only by entries without `uses` that compile, makes the list comprehension fail with AttributeError("get") |
| MapperFacts.PassThroughMapsCompile | csv_transform/mapper.py:35-36 | entries without `apply` all compile to pass-throughs, whatever the resources |
| MapperFacts.UsesWithoutResourcesExample | csv_transform/mapper.py:58-61 | the map file with no resources and the one entry {"uses": [0]} fails as written and compiles to one pass-through keyed by id |

## Left out

- Opening files and importing modules: both are the `Env` parameter. The model does not capture what an open file or module contains, or when handles are released.
- Reflection on `__builtins__`: the namespace is a given `PyObj` value. In an imported module, CPython binds `__builtins__` to a dict, so `getattr` on it would not find builtin functions. The model does not decide this and leaves the namespace as a parameter.
- `**args` expansion: `args` is passed to the resolved function as given. The model does not capture that a missing or non-dict `args` raises TypeError at the call.
- JSON: numbers are integers. Resource ids are `int`, although JSON object keys are strings.
- `str.upper` is modelled for ASCII letters only; other characters are left unchanged.
- `os.path.join` is modelled for POSIX paths only.
- The `apply` spec (`ApplySpec`): the keys of `apply` other than `type`, `name`, `source` and `args` are kept in `others`, and the model relies on `others` not repeating those four. A spec that broke this would stand for no dict.
- The generator of `CSVMapper.apply` is modelled by its finished output (`MapStream`). The rows are a finite sequence, not a lazy iterator.
- The unqualified `Resource` annotation in `ValueMap.from_spec` (csv_transform/mapper.py:30) is not modelled.
- The duplicate class definitions at csv_transform/invoker.py:1-46 are shadowed by those at lines 48-89 and are not modelled separately.
- `csv_transform/cli.py` (argument parsing, CSV reading and printing) is not part of this model, and neither is `mapreduce.py` (an earlier draft).
- JSON shapes outside the model's types are not modelled. The model does not capture what Python does with them:
  - Tags, names and `source` are strings or absent. Another JSON type there makes Python raise AttributeError on `.strip()` or `.replace()`, or TypeError in `getattr`.
  - `apply` is absent or an object. A falsy non-object (`false`, `0`, `""`, `[]`) would give the pass-through; any other non-object would raise AttributeError on `apply.get`.
  - `target` is an integer. Another JSON type would raise TypeError when a row is indexed.
  - `uses` is a list of integers. Another JSON type would change or break the lookup comprehension.
  - `resources` is an object and `maps` a list, or absent. `"resources": null` or `"maps": null` would make `from_mapfile` raise TypeError when it iterates them.
  - `extra` is an object. For a file resource, `"extra": null` or another non-object would raise AttributeError on `extra.pop`; a module resource ignores it.

## Findings

| source | as written | input that shows it | evidently intended | confidence | as-written member | corrected member |
|---|---|---|---|---|---|---|
| csv_transform/mapper.py:60-61 | `from_mapfile` rebuilds the resolved resources as a list and passes it to `ValueMap.from_spec`, which calls `resources.get(id)` for every id in `uses`; a list has no `.get`, so AttributeError | a map file with no `resources` and `maps` = `[{"uses": [0]}]` (or any map file in which an entry lists `uses`) | resources keyed by id, as `from_spec`'s own signature declares (`Dict[int, Resource]`), so `uses` finds declared resources and yields None for undeclared ones | high, not executed | MapperFacts.ListOfResourcesRejectsUses | Mapper.CSVMapper.FromMapfile |

=== FILE: invokers.dfy ===
/** The invoker strategies of csv_transform/invoker.py. Each invoker is a
    closure built once from a target column, the required resources and
    the `apply` spec; calling it on a row reads the target cell and hands
    it, with the stored keyword arguments, to a function resolved from the
    builtins namespace. The namespace is a given object: what a name
    resolves to, and what calling it does, are parameters of the model. */
module Invokers {
  import opened PyRuntime
  import opened Resources

  /** What calling a resolved function does: the target cell and the stored
      `args` in, a value or a raised exception out. */
  type Fn = (string, Option<Json>) -> Result<Value>

  /** A Python object reachable from the builtins namespace: how it behaves
      when called (None when it is not callable) and its attributes. */
  datatype PyObj = PyObj(call: Option<Fn>, attrs: map<string, PyObj>)

  /** getattr(obj, name): a missing name is a TypeError (getattr needs a
      str), an unknown one an AttributeError. */
  function GetAttr(obj: PyObj, name: Option<string>): (r: Result<PyObj>)
    ensures r.Ok? <==> name.Some? && name.value in obj.attrs
    ensures r.Ok? ==> r.value == obj.attrs[name.value]
    ensures name.None? ==> r.Err? && r.error.TypeError?
    ensures name.Some? && name.value !in obj.attrs ==> r.Err? && r.error == AttributeError(name.value)
  {
    match name
    case None => Err(TypeError("attribute name must be string"))
    case Some(n) => if n in obj.attrs then Ok(obj.attrs[n]) else Err(AttributeError(n))
  }

  /** The `apply` object of a map entry; `others` holds any keys the
      invokers do not read. It stands for the dict with those entries and
      the four named keys, so `others` is meant never to hold "type",
      "name", "source" or "args". */
  datatype ApplySpec = ApplySpec(
    tag: Option<string>,
    name: Option<string>,
    source: Option<string>,
    args: Option<Json>,
    others: map<string, Json>)

  /** The three invoker classes, with the fields their __init__ sets. */
  datatype Invoker =
    | BuiltinFunctionInvoker(func: Option<Fn>, target: int, args: Option<Json>)
    | BuiltinMethodInvoker(func: Option<Fn>, target: int, args: Option<Json>)
    | ResourceMethodInvoker

  /** BuiltinFunctionInvoker.__init__: resolves `name` on the builtins
      namespace once, and keeps `target` and `args`. The resources are not
      used. */
  function NewBuiltinFunctionInvoker(target: int, resources: seq<Option<Resource>>, apply: ApplySpec, builtins: PyObj): (r: Result<Invoker>)
    ensures r.Ok? <==> apply.name.Some? && apply.name.value in builtins.attrs
    ensures r.Ok? ==> r.value.BuiltinFunctionInvoker? && r.value.func == builtins.attrs[apply.name.value].call
    ensures r.Ok? ==> r.value.target == target && r.value.args == apply.args
    ensures r.Err? ==> r.error == GetAttr(builtins, apply.name).error
  {
    match GetAttr(builtins, apply.name)
    case Err(e) => Err(e)
    case Ok(f) => Ok(BuiltinFunctionInvoker(f.call, target, apply.args))
  }

  /** BuiltinMethodInvoker.__init__: resolves `source` on the builtins
      namespace and then `name` on that object, once, and keeps `args` and
      `target`. A bad `source` is reported before a bad `name`. */
  function NewBuiltinMethodInvoker(target: int, resources: seq<Option<Resource>>, apply: ApplySpec, builtins: PyObj): (r: Result<Invoker>)
    ensures r.Ok? <==> apply.source.Some? && apply.source.value in builtins.attrs
                       && apply.name.Some? && apply.name.value in builtins.attrs[apply.source.value].attrs
    ensures r.Ok? ==> r.value.BuiltinMethodInvoker?
                      && r.value.func == builtins.attrs[apply.source.value].attrs[apply.name.value].call
    ensures r.Ok? ==> r.value.target == target && r.value.args == apply.args
    ensures GetAttr(builtins, apply.source).Err? ==> r.Err? && r.error == GetAttr(builtins, apply.source).error
    ensures GetAttr(builtins, apply.source).Ok? && r.Err? ==>
      r.error == GetAttr(GetAttr(builtins, apply.source).value, apply.name).error
  {
    match GetAttr(builtins, apply.source)
    case Err(e) => Err(e)
    case Ok(namespace) =>
      match GetAttr(namespace, apply.name)
      case Err(e) => Err(e)
      case Ok(f) => Ok(BuiltinMethodInvoker(f.call, target, apply.args))
  }

  /** ResourceMethodInvoker.__init__: a stub that stores nothing. */
  function NewResourceMethodInvoker(target: int, resources: seq<Option<Resource>>, apply: ApplySpec, builtins: PyObj): (r: Result<Invoker>)
    ensures r == Ok(ResourceMethodInvoker)
  {
    Ok(ResourceMethodInvoker)
  }

  /** The invoker classes, as the mapper's dispatch table names them. */
  datatype InvokerKind = BuiltinFunctionKind | BuiltinMethodKind | ResourceMethodKind

  /** invoker(target, required_resources, apply) for the class `kind`: an
      instance of that class, holding `target` and the spec's `args`. */
  function Construct(kind: InvokerKind, target: int, resources: seq<Option<Resource>>, apply: ApplySpec, builtins: PyObj): (r: Result<Invoker>)
    ensures kind == BuiltinFunctionKind ==> r == NewBuiltinFunctionInvoker(target, resources, apply, builtins)
    ensures kind == BuiltinMethodKind ==> r == NewBuiltinMethodInvoker(target, resources, apply, builtins)
    ensures kind == ResourceMethodKind ==> r == Ok(ResourceMethodInvoker)
    ensures r.Ok? ==> (r.value.BuiltinFunctionInvoker? <==> kind == BuiltinFunctionKind)
    ensures r.Ok? ==> (r.value.BuiltinMethodInvoker? <==> kind == BuiltinMethodKind)
    ensures r.Ok? && kind != ResourceMethodKind ==> r.value.target == target && r.value.args == apply.args
  {
    match kind
    case BuiltinFunctionKind => NewBuiltinFunctionInvoker(target, resources, apply, builtins)
    case BuiltinMethodKind => NewBuiltinMethodInvoker(target, resources, apply, builtins)
    case ResourceMethodKind => NewResourceMethodInvoker(target, resources, apply, builtins)
  }

  /** invoker(row): func(row[target], **args). Indexing comes first, so an
      out-of-range target fails before anything is called; a non-callable
      resolved object fails at the call. The function invoker discards
      what the call returns and gives None; the method invoker returns it;
      the resource-method stub returns None. */
  function Call(inv: Invoker, row: Row): (r: Result<Value>)
    ensures inv.ResourceMethodInvoker? ==> r == Ok(PyNone)
    ensures inv.BuiltinFunctionInvoker? && r.Ok? ==> r.value == PyNone
    ensures !inv.ResourceMethodInvoker? && Index(row, inv.target).Err? ==> r == Err(IndexError(inv.target))
    ensures !inv.ResourceMethodInvoker? && Index(row, inv.target).Ok? && inv.func.None? ==> r.Err? && r.error.TypeError?
    ensures !inv.ResourceMethodInvoker? && Index(row, inv.target).Ok? && inv.func.Some? ==>
      var outcome := inv.func.value(Index(row, inv.target).value, inv.args);
      (r.Ok? <==> outcome.Ok?) && (r.Err? ==> r.error == outcome.error)
      && (inv.BuiltinMethodInvoker? ==> r == outcome)
  {
    match inv
    case ResourceMethodInvoker => Ok(PyNone)
    case _ =>
      match Index(row, inv.target)
      case Err(e) => Err(e)
      case Ok(cell) =>
        match inv.func
        case None => Err(TypeError("object is not callable"))
        case Some(f) =>
          match f(cell, inv.args)
          case Err(e) => Err(e)
          case Ok(v) => if inv.BuiltinFunctionInvoker? then Ok(PyNone) else Ok(v)
  }
}

/** Properties of the invokers. */
module InvokerFacts {
  import opened PyRuntime
  import opened Resources
  import opened Invokers

  /** An invoker reads only the target cell of a row: two rows that agree
      there give the same outcome. */
  lemma CallReadsOnlyTarget(inv: Invoker, row1: Row, row2: Row)
    requires !inv.ResourceMethodInvoker? ==> Index(row1, inv.target) == Index(row2, inv.target)
    ensures Call(inv, row1) == Call(inv, row2)
  {
  }

  /** A built function invoker applies the builtin named by `name` to the
      target cell with the `args` taken from the spec, the same for every
      row, and yields None whatever the function returned. */
  lemma BuiltinFunctionAppliesNamedFunction(target: int, resources: seq<Option<Resource>>, apply: ApplySpec, builtins: PyObj, row: Row)
    requires NewBuiltinFunctionInvoker(target, resources, apply, builtins).Ok?
    requires Index(row, target).Ok?
    requires builtins.attrs[apply.name.value].call.Some?
    ensures var f := builtins.attrs[apply.name.value].call.value;
      var r := Call(NewBuiltinFunctionInvoker(target, resources, apply, builtins).value, row);
      match f(Index(row, target).value, apply.args)
      case Ok(_) => r == Ok(PyNone)
      case Err(e) => r == Err(e)
  {
  }

  /** A built method invoker returns source.name(row[target], **args), with
      the `args` taken from the spec, the same for every row. */
  lemma BuiltinMethodReturnsResult(target: int, resources: seq<Option<Resource>>, apply: ApplySpec, builtins: PyObj, row: Row)
    requires NewBuiltinMethodInvoker(target, resources, apply, builtins).Ok?
    requires Index(row, target).Ok?
    requires builtins.attrs[apply.source.value].attrs[apply.name.value].call.Some?
    ensures var f := builtins.attrs[apply.source.value].attrs[apply.name.value].call.value;
      Call(NewBuiltinMethodInvoker(target, resources, apply, builtins).value, row) == f(Index(row, target).value, apply.args)
  {
  }

  /** Name resolution happens at construction: a function invoker whose
      name the namespace lacks is never built; the AttributeError names it. */
  lemma ResolutionFailsAtConstruction(target: int, resources: seq<Option<Resource>>, apply: ApplySpec, builtins: PyObj)
    requires apply.name.Some? && apply.name.value !in builtins.attrs
    ensures NewBuiltinFunctionInvoker(target, resources, apply, builtins) == Err(AttributeError(apply.name.value))
  {
  }

  /** A method invoker resolves `source` first and then `name` on it, at
      construction: the AttributeError names whichever is missing first. */
  lemma MethodResolutionFailsAtConstruction(target: int, resources: seq<Option<Resource>>, apply: ApplySpec, builtins: PyObj)
    requires apply.source.Some? && apply.name.Some?
    requires apply.source.value !in builtins.attrs || apply.name.value !in builtins.attrs[apply.source.value].attrs
    ensures NewBuiltinMethodInvoker(target, resources, apply, builtins) ==
      Err(AttributeError(if apply.source.value !in builtins.attrs then apply.source.value else apply.name.value))
  {
  }

  /** A method invoker whose `source` resolves but whose spec has no `name`
      fails at construction with the TypeError of getattr(ns, None). */
  lemma MethodNameMissingIsTypeError(target: int, resources: seq<Option<Resource>>, apply: ApplySpec, builtins: PyObj)
    requires apply.source.Some? && apply.source.value in builtins.attrs && apply.name.None?
    ensures NewBuiltinMethodInvoker(target, resources, apply, builtins).Err?
    ensures NewBuiltinMethodInvoker(target, resources, apply, builtins).error.TypeError?
  {
  }

  /** The resource-method stub ignores the row. */
  lemma ResourceMethodStubReturnsNone(target: int, resources: seq<Option<Resource>>, apply: ApplySpec, builtins: PyObj, row: Row)
    ensures Call(NewResourceMethodInvoker(target, resources, apply, builtins).value, row) == Ok(PyNone)
  {
  }
}

=== FILE: mapper.dfy ===
/** The value-map compiler and the row-streaming mapper of
    csv_transform/mapper.py. A map entry of the map file compiles into a
    ValueMap: the pass-through when it has no `apply`, otherwise the
    invoker that its apply type selects. A CSVMapper holds the compiled
    maps in declaration order and turns every input row into the list of
    their values on that row. */
module Mapper {
  import opened PyRuntime
  import opened Resources
  import opened Invokers

  /** ApplyType: the closed set of apply kinds. */
  datatype ApplyType = BuiltinFunction | BuiltinMethod | ResourceMethod

  /** The enum member name that ApplyType[...] looks up. */
  function ApplyTypeName(t: ApplyType): string {
    match t
    case BuiltinFunction => "BUILTIN_FUNCTION"
    case BuiltinMethod => "BUILTIN_METHOD"
    case ResourceMethod => "RESOURCE_METHOD"
  }

  /** The tag as ApplyType[...] receives it: hyphens turned into
      underscores, then upper-cased; it is not stripped. */
  function NormalizeApplyTag(raw: string): string {
    Upper(Replace(raw, '-', '_'))
  }

  /** The default tag "builtin-function" names BUILTIN_FUNCTION. */
  lemma DefaultApplyTag()
    ensures NormalizeApplyTag("builtin-function") == "BUILTIN_FUNCTION"
  {
    var u := NormalizeApplyTag("builtin-function");
    assert u[0] == 'B' && u[1] == 'U' && u[2] == 'I' && u[3] == 'L' && u[4] == 'T' && u[5] == 'I' && u[6] == 'N' && u[7] == '_';
    assert u[8] == 'F' && u[9] == 'U' && u[10] == 'N' && u[11] == 'C' && u[12] == 'T' && u[13] == 'I' && u[14] == 'O' && u[15] == 'N';
  }

  /** The type check of ValueMap.from_spec: a missing tag means
      "builtin-function"; a tag that normalises to no member name is an
      ApplyTypeError naming the raw tag. */
  function ParseApplyType(tag: Option<string>): (r: Result<ApplyType>)
    ensures r.Ok? ==> ApplyTypeName(r.value) == NormalizeApplyTag(tag.GetOr("builtin-function"))
    ensures r.Err? ==> forall t :: ApplyTypeName(t) != NormalizeApplyTag(tag.GetOr("builtin-function"))
    ensures r.Err? ==> tag.Some? && r.error == ApplyTypeError(tag.value + " is not a valid apply type")
  {
    var name := NormalizeApplyTag(tag.GetOr("builtin-function"));
    DefaultApplyTag();
    if name == ApplyTypeName(BuiltinFunction) then Ok(BuiltinFunction)
    else if name == ApplyTypeName(BuiltinMethod) then Ok(BuiltinMethod)
    else if name == ApplyTypeName(ResourceMethod) then Ok(ResourceMethod)
    else Err(ApplyTypeError(Repr(tag) + " is not a valid apply type"))
  }

  /** invoke_map.get(t): the invoker class registered for an apply type.
      RESOURCE_METHOD has no entry. */
  function InvokeMap(t: ApplyType): (r: Option<InvokerKind>)
    ensures r.Some? <==> t != ResourceMethod
    ensures r.Some? ==> r.value != ResourceMethodKind
    ensures r.Some? ==> (r.value == BuiltinFunctionKind <==> t == BuiltinFunction)
  {
    match t
    case BuiltinFunction => Some(BuiltinFunctionKind)
    case BuiltinMethod => Some(BuiltinMethodKind)
    case ResourceMethod => None
  }

  /** A compiled ValueMap: the pass-through `lambda *args: args`, or an
      invoker. */
  datatype ValueMap = PassThrough | Invoke(invoker: Invoker)

  /** ValueMap.__call__(row). The pass-through returns its argument tuple,
      that is (row,): the whole row, whatever the target. */
  function Eval(vm: ValueMap, row: Row): (r: Result<Value>)
    ensures vm.PassThrough? ==> r == Ok(RowTuple(row))
    ensures vm.Invoke? ==> r == Call(vm.invoker, row)
  {
    match vm
    case PassThrough => Ok(RowTuple(row))
    case Invoke(inv) => Call(inv, row)
  }

  /** One entry of the map file's `maps` list. */
  datatype MapSpec = MapSpec(target: Option<int>, uses: Option<seq<int>>, apply: Option<ApplySpec>)

  /** `not apply` is false: the apply dict has at least one key, that is,
      it is not the empty dict. */
  predicate Truthy(apply: ApplySpec): (b: bool)
    ensures b <==> apply != ApplySpec(None, None, None, None, map[])
  {
    apply.tag.Some? || apply.name.Some? || apply.source.Some? || apply.args.Some? || |apply.others| > 0
  }

  /** [resources.get(id) for id in uses] over the id-to-resource map: an
      undeclared id gives None instead of raising. */
  function RequiredResources(uses: seq<int>, resources: map<int, Resource>): (r: seq<Option<Resource>>)
    ensures |r| == |uses|
    ensures forall i :: 0 <= i < |uses| ==> (r[i].Some? <==> uses[i] in resources)
    ensures forall i :: 0 <= i < |uses| && uses[i] in resources ==> r[i] == Some(resources[uses[i]])
  {
    seq(|uses|, i requires 0 <= i < |uses| => if uses[i] in resources then Some(resources[uses[i]]) else None)
  }

  /** The same comprehension as CSVMapper.from_mapfile runs it, over the
      list of resources: a list has no .get, so any non-empty `uses` raises
      AttributeError, whether or not the id was declared. */
  function RequiredResourcesFromList(uses: seq<int>, resources: seq<Resource>): (r: Result<seq<Option<Resource>>>)
    ensures r.Ok? <==> uses == []
    ensures r.Ok? ==> r.value == []
    ensures r.Err? ==> r.error == AttributeError("get")
  {
    if uses == [] then Ok([]) else Err(AttributeError("get"))
  }

  /** The part of ValueMap.from_spec after the resources are looked up. */
  function CompileApply(target: int, required: seq<Option<Resource>>, apply: Option<ApplySpec>, builtins: PyObj): (r: Result<ValueMap>)
    ensures apply.None? || !Truthy(apply.value) ==> r == Ok(PassThrough)
    ensures apply.Some? && Truthy(apply.value) && ParseApplyType(apply.value.tag).Err? ==>
      r == Err(ParseApplyType(apply.value.tag).error)
    ensures apply.Some? && Truthy(apply.value) && ParseApplyType(apply.value.tag) == Ok(ResourceMethod) ==>
      r == Err(KeyError("ApplyType." + ApplyTypeName(ResourceMethod)))
    ensures r.Ok? && r.value.Invoke? ==>
      apply.Some? && ParseApplyType(apply.value.tag).Ok? && InvokeMap(ParseApplyType(apply.value.tag).value).Some?
      && Construct(InvokeMap(ParseApplyType(apply.value.tag).value).value, target, required, apply.value, builtins) == Ok(r.value.invoker)
    ensures apply.Some? && Truthy(apply.value) && ParseApplyType(apply.value.tag).Ok? && InvokeMap(ParseApplyType(apply.value.tag).value).Some? ==>
      r == match Construct(InvokeMap(ParseApplyType(apply.value.tag).value).value, target, required, apply.value, builtins)
           case Err(e) => Err(e)
           case Ok(inv) => Ok(Invoke(inv))
  {
    if apply.None? || !Truthy(apply.value) then Ok(PassThrough)
    else
      match ParseApplyType(apply.value.tag)
      case Err(e) => Err(e)
      case Ok(t) =>
        match InvokeMap(t)
        case None => Err(KeyError("ApplyType." + ApplyTypeName(t)))
        case Some(kind) =>
          match Construct(kind, target, required, apply.value, builtins)
          case Err(e) => Err(e)
          case Ok(inv) => Ok(Invoke(inv))
  }

  /** ValueMap.from_spec over the id-to-resource map: `uses` defaults to
      [], `target` to 0; a missing or empty `apply` compiles to the
      pass-through; otherwise the tag selects the invoker, built eagerly. */
  function ValueMapFromSpec(spec: MapSpec, resources: map<int, Resource>, builtins: PyObj): (r: Result<ValueMap>)
    ensures spec.apply.None? || !Truthy(spec.apply.value) ==> r == Ok(PassThrough)
    ensures r.Ok? && r.value.Invoke? ==> !r.value.invoker.ResourceMethodInvoker?
    ensures r.Ok? && r.value.Invoke? && !r.value.invoker.ResourceMethodInvoker? ==>
      r.value.invoker.target == spec.target.GetOr(0) && spec.apply.Some? && r.value.invoker.args == spec.apply.value.args
  {
    CompileApply(spec.target.GetOr(0), RequiredResources(spec.uses.GetOr([]), resources), spec.apply, builtins)
  }

  /** ValueMap.from_spec as CSVMapper.from_mapfile calls it, with the
      resources turned into a list. */
  function ValueMapFromListResources(spec: MapSpec, resources: seq<Resource>, builtins: PyObj): (r: Result<ValueMap>)
    ensures spec.uses.GetOr([]) != [] ==> r.Err? && r.error == AttributeError("get")
  {
    match RequiredResourcesFromList(spec.uses.GetOr([]), resources)
    case Err(e) => Err(e)
    case Ok(required) => CompileApply(spec.target.GetOr(0), required, spec.apply, builtins)
  }

  /** [ValueMap.from_spec(spec, resources) for spec in maps]: every map
      compiled before any row is read, in declaration order. */
  function CompileMaps(specs: seq<MapSpec>, resources: map<int, Resource>, builtins: PyObj): (r: Result<seq<ValueMap>>)
    ensures r.Ok? <==> forall i :: 0 <= i < |specs| ==> ValueMapFromSpec(specs[i], resources, builtins).Ok?
    ensures r.Ok? ==> |r.value| == |specs|
    ensures r.Ok? ==> forall i :: 0 <= i < |specs| ==> ValueMapFromSpec(specs[i], resources, builtins) == Ok(r.value[i])
    ensures r.Err? ==> exists j :: 0 <= j < |specs| && ValueMapFromSpec(specs[j], resources, builtins) == Err(r.error)
                                   && forall i :: 0 <= i < j ==> ValueMapFromSpec(specs[i], resources, builtins).Ok?
  {
    var rs := seq(|specs|, i requires 0 <= i < |specs| => ValueMapFromSpec(specs[i], resources, builtins));
    assert forall i :: 0 <= i < |specs| ==> rs[i] == ValueMapFromSpec(specs[i], resources, builtins);
    var r := Collect(rs);
    assert r.Err? ==> ValueMapFromSpec(specs[FirstErr(rs)], resources, builtins) == Err(r.error);
    r
  }

  /** The values of all maps on one row. */
  function Evals(mappings: seq<ValueMap>, row: Row): (rs: seq<Result<Value>>)
    ensures |rs| == |mappings| && forall i :: 0 <= i < |mappings| ==> rs[i] == Eval(mappings[i], row)
  {
    seq(|mappings|, i requires 0 <= i < |mappings| => Eval(mappings[i], row))
  }

  /** [mapping(row) for mapping in mappings]: one value per map, in map
      order, or the exception of the first map that raised. */
  function MapRow(mappings: seq<ValueMap>, row: Row): (r: Result<seq<Value>>)
    ensures r.Ok? <==> forall i :: 0 <= i < |mappings| ==> Eval(mappings[i], row).Ok?
    ensures r.Ok? ==> |r.value| == |mappings| && forall i :: 0 <= i < |mappings| ==> Eval(mappings[i], row) == Ok(r.value[i])
    ensures r.Err? ==> exists j :: 0 <= j < |mappings| && Eval(mappings[j], row) == Err(r.error)
                                   && forall i :: 0 <= i < j ==> Eval(mappings[i], row).Ok?
  {
    var r := Collect(Evals(mappings, row));
    assert r.Err? ==> Eval(mappings[FirstErr(Evals(mappings, row))], row) == Err(r.error);
    r
  }

  /** What CSVMapper.apply yields when its output is consumed: the output
      rows, and the exception that ended the stream early, if any. */
  datatype Stream = Stream(emitted: seq<seq<Value>>, failure: Option<Error>)

  /** The generator of CSVMapper.apply run to its end over `rows`: each
      row in turn is mapped and yielded; the first row whose mapping
      raises ends the stream with that exception. */
  function MapStream(mappings: seq<ValueMap>, rows: seq<Row>): (s: Stream)
    ensures |s.emitted| <= |rows|
    ensures s.failure.None? ==> |s.emitted| == |rows|
    ensures s.failure.Some? ==> |s.emitted| < |rows| && MapRow(mappings, rows[|s.emitted|]) == Err(s.failure.value)
    ensures forall k :: 0 <= k < |s.emitted| ==> MapRow(mappings, rows[k]) == Ok(s.emitted[k])
    decreases |rows|
  {
    if rows == [] then Stream([], None)
    else
      var n := |rows| - 1;
      var before := MapStream(mappings, rows[..n]);
      assert forall k :: 0 <= k < n ==> rows[..n][k] == rows[k];
      if before.failure.Some? then before
      else
        match MapRow(mappings, rows[n])
        case Err(e) => Stream(before.emitted, Some(e))
        case Ok(out) => Stream(before.emitted + [out], None)
  }

  /** CSVMapper: the compiled maps, in the order of the map file. */
  class CSVMapper {
    const mappings: seq<ValueMap>

    constructor (mappings: seq<ValueMap>)
      ensures this.mappings == mappings
    {
      this.mappings := mappings;
    }

    /** CSVMapper.from_mapfile: resolves the declared resources (each
        file resource loses `location` from its options bag, up to the
        first failure), then compiles the maps against them. */
    static method FromMapfile(mapfile: MapFile, env: Env, builtins: PyObj) returns (r: Result<CSVMapper>)
      requires DistinctExtras(DeclaredResources(mapfile))
      modifies AllExtras(DeclaredResources(mapfile))
      ensures var expected := MapfileMaps(mapfile, old(Snapshot(DeclaredResources(mapfile))), env, builtins);
        (r.Ok? <==> expected.Ok?)
        && (r.Ok? ==> fresh(r.value) && r.value.mappings == expected.value)
        && (r.Err? ==> r.error == expected.error)
      ensures var specs := DeclaredResources(mapfile);
        ResolvedUpTo(specs, old(Snapshot(specs)), Processed(specs, old(Snapshot(specs)), env))
    {
      var specs := DeclaredResources(mapfile);
      ghost var before := Snapshot(specs);
      var resolved := ResolveResources(specs, env);
      ghost var processed := Processed(specs, before, env);
      assert ResolvedUpTo(specs, before, processed);
      if resolved.Err? {
        return Err(resolved.error);
      }
      var maps := CompileMaps(mapfile.maps.GetOr([]), resolved.value, builtins);
      if maps.Err? {
        return Err(maps.error);
      }
      var mapper := new CSVMapper(maps.value);
      assert ResolvedUpTo(specs, before, processed);
      r := Ok(mapper);
    }

    /** The list comprehension of CSVMapper.apply for one row. */
    method MapOneRow(row: Row) returns (r: Result<seq<Value>>)
      ensures r == MapRow(mappings, row)
    {
      var out: seq<Value> := [];
      for j := 0 to |mappings|
        invariant |out| == j
        invariant forall i :: 0 <= i < j ==> Eval(mappings[i], row) == Ok(out[i])
      {
        var v := Eval(mappings[j], row);
        if v.Err? {
          var expected := MapRow(mappings, row);
          var k :| 0 <= k < |mappings| && Eval(mappings[k], row) == Err(expected.error)
                   && forall i :: 0 <= i < k ==> Eval(mappings[i], row).Ok?;
          assert k == j;
          return Err(v.error);
        }
        out := out + [v.value];
      }
      var expected := MapRow(mappings, row);
      assert expected.Ok?;
      assert forall i :: 0 <= i < |mappings| ==> expected.value[i] == out[i];
      assert expected.value == out;
      r := Ok(out);
    }

    /** CSVMapper.apply(csv), consumed to the end: one output row per input
        row, in input order, until a row fails. */
    method Apply(rows: seq<Row>) returns (emitted: seq<seq<Value>>, failure: Option<Error>)
      ensures Stream(emitted, failure) == MapStream(mappings, rows)
    {
      emitted, failure := [], None;
      for k := 0 to |rows|
        invariant MapStream(mappings, rows[..k]) == Stream(emitted, None)
      {
        var out := MapOneRow(rows[k]);
        StreamAppendsOneRow(mappings, rows, k);
        if out.Err? {
          failure := Some(out.error);
          StreamFailsAtRow(mappings, rows, k + 1);
          return;
        }
        emitted := emitted + [out.value];
      }
      assert rows[..|rows|] == rows;
    }
  }

  /** Streaming: one more input row after a stream that has not failed adds
      exactly that row's output, or ends the stream with its exception. */
  lemma StreamAppendsOneRow(mappings: seq<ValueMap>, rows: seq<Row>, k: nat)
    requires k < |rows| && MapStream(mappings, rows[..k]).failure.None?
    ensures MapStream(mappings, rows[..k + 1]) ==
      match MapRow(mappings, rows[k])
      case Err(e) => Stream(MapStream(mappings, rows[..k]).emitted, Some(e))
      case Ok(out) => Stream(MapStream(mappings, rows[..k]).emitted + [out], None)
  {
    assert rows[..k + 1][..k] == rows[..k];
  }

  /** A stream that has failed on the first k rows is the stream of all rows. */
  lemma StreamFailsAtRow(mappings: seq<ValueMap>, rows: seq<Row>, k: nat)
    requires k <= |rows| && MapStream(mappings, rows[..k]).failure.Some?
    ensures MapStream(mappings, rows) == MapStream(mappings, rows[..k])
  {
    var done, rest := rows[..k], rows[k..];
    assert done + rest == rows;
    StreamStopsAtFailure(mappings, done, rest);
  }

  /** A stream whose rows before the last already failed ignores the last row. */
  lemma StreamUnfoldsAfterFailure(mappings: seq<ValueMap>, rows: seq<Row>)
    requires rows != [] && MapStream(mappings, rows[..|rows| - 1]).failure.Some?
    ensures MapStream(mappings, rows) == MapStream(mappings, rows[..|rows| - 1])
  {
  }

  /** Once a prefix of the input has failed, no later row changes the
      stream: the mapper processes nothing after the failing row. */
  lemma {:induction false} StreamStopsAtFailure(mappings: seq<ValueMap>, done: seq<Row>, rest: seq<Row>)
    requires MapStream(mappings, done).failure.Some?
    ensures MapStream(mappings, done + rest) == MapStream(mappings, done)
    decreases |rest|
  {
    if rest == [] {
      assert done + rest == done;
    } else {
      var all := done + rest;
      var n := |rest| - 1;
      assert all[..|all| - 1] == done + rest[..n];
      StreamStopsAtFailure(mappings, done, rest[..n]);
      StreamUnfoldsAfterFailure(mappings, all);
    }
  }


  /** The declared resources, in the order of the map file's `resources`
      object: (id, spec) pairs. */
  type ResourceSpecs = seq<(int, ResourceSpec)>

  /** Every dict object that resolving the specs may change. */
  function AllExtras(specs: ResourceSpecs): set<Options> {
    set i | 0 <= i < |specs| && specs[i].1.extra.Some? :: specs[i].1.extra.value
  }

  /** json.load never shares a dict between two resource specs. */
  predicate DistinctExtras(specs: ResourceSpecs) {
    forall i, j :: 0 <= i < j < |specs| && specs[i].1.extra.Some? && specs[j].1.extra.Some? ==>
      specs[i].1.extra.value != specs[j].1.extra.value
  }

  /** The options bags of all specs at one moment. */
  function Snapshot(specs: ResourceSpecs): (s: seq<map<string, Json>>)
    reads AllExtras(specs)
    ensures |s| == |specs|
    ensures forall i :: 0 <= i < |specs| ==> s[i] == EntriesOf(specs[i].1)
  {
    if specs == [] then []
    else
      var n := |specs| - 1;
      assert AllExtras(specs[..n]) <= AllExtras(specs);
      Snapshot(specs[..n]) + [EntriesOf(specs[n].1)]
  }

  /** Resource.from_spec on each spec, from the options bags `extras` the
      specs hold beforehand. */
  function Outcomes(specs: ResourceSpecs, extras: seq<map<string, Json>>, env: Env): (rs: seq<Result<Resource>>)
    requires |extras| == |specs|
    ensures |rs| == |specs|
  {
    ZipWith((s: (int, ResourceSpec), extra: map<string, Json>) => ResourceOutcome(s.0, s.1.tag, s.1.name, extra, env), specs, extras)
  }

  /** The i-th outcome is Resource.from_spec on the i-th spec. */
  lemma OutcomeAt(specs: ResourceSpecs, extras: seq<map<string, Json>>, env: Env, i: nat)
    requires |extras| == |specs| && i < |specs|
    ensures Outcomes(specs, extras, env)[i] == ResourceOutcome(specs[i].0, specs[i].1.tag, specs[i].1.name, extras[i], env)
  {
    ZipWithAt((s: (int, ResourceSpec), extra: map<string, Json>) => ResourceOutcome(s.0, s.1.tag, s.1.name, extra, env), specs, extras, i);
  }

  /** The ids of the declared resources, in order. */
  function Ids(specs: ResourceSpecs): (ids: seq<int>)
    ensures |ids| == |specs| && forall i :: 0 <= i < |specs| ==> ids[i] == specs[i].0
  {
    seq(|specs|, i requires 0 <= i < |specs| => specs[i].0)
  }

  /** ids[i] does not occur again later in `ids`. */
  predicate LastOccurrence(ids: seq<int>, i: nat) {
    forall j :: i < j < |ids| ==> ids[j] != ids[i]
  }

  /** The resolved resources keyed by id; a later id wins, as in a dict. */
  function Register(ids: seq<int>, resources: seq<Resource>): (m: map<int, Resource>)
    requires |ids| == |resources|
    ensures m.Keys == set i | 0 <= i < |ids| :: ids[i]
    ensures forall i :: 0 <= i < |ids| && LastOccurrence(ids, i) ==> m[ids[i]] == resources[i]
    decreases |ids|
  {
    if ids == [] then map[]
    else
      var n := |ids| - 1;
      var earlier := Register(ids[..n], resources[..n]);
      RegisterExtends(ids, resources, ids[..n], resources[..n], earlier);
      earlier[ids[n] := resources[n]]
  }

  /** Adding the last id to the dict built from the ones before it keeps
      every id as a key and the last-declared resource under each. */
  lemma RegisterExtends(ids: seq<int>, resources: seq<Resource>, prefix: seq<int>, prefixResources: seq<Resource>, earlier: map<int, Resource>)
    requires ids != [] && |ids| == |resources|
    requires prefix == ids[..|ids| - 1] && prefixResources == resources[..|ids| - 1]
    requires earlier.Keys == set i | 0 <= i < |prefix| :: prefix[i]
    requires forall i :: 0 <= i < |prefix| && LastOccurrence(prefix, i) ==> earlier[prefix[i]] == prefixResources[i]
    ensures var m := earlier[ids[|ids| - 1] := resources[|ids| - 1]];
      m.Keys == (set i | 0 <= i < |ids| :: ids[i])
      && forall i :: 0 <= i < |ids| && LastOccurrence(ids, i) ==> m[ids[i]] == resources[i]
  {
    var n := |ids| - 1;
    var m := earlier[ids[n] := resources[n]];
    assert (set i | 0 <= i < |ids| :: ids[i]) == (set i | 0 <= i < |prefix| :: prefix[i]) + {ids[n]};
    forall i | 0 <= i < |ids| && LastOccurrence(ids, i)
      ensures m[ids[i]] == resources[i]
    {
      if i < n {
        assert ids[n] != ids[i];
        assert prefix[i] == ids[i] && prefixResources[i] == resources[i];
        assert LastOccurrence(prefix, i);
      }
    }
  }

  /** The resources of the map file resolved one after the other and keyed
      by id; the first failure stops the resolution. */
  function ResolveAll(specs: ResourceSpecs, extras: seq<map<string, Json>>, env: Env): (r: Result<map<int, Resource>>)
    requires |extras| == |specs|
  {
    match Collect(Outcomes(specs, extras, env))
    case Err(e) => Err(e)
    case Ok(resources) => Ok(Register(Ids(specs), resources))
  }

  /** The options bags once Resource.from_spec has run on the first k
      specs: each of those is its `AfterAll` entry, and every later bag is
      as it was in `before`. */
  ghost predicate ResolvedUpTo(specs: ResourceSpecs, before: seq<map<string, Json>>, k: nat)
    reads AllExtras(specs)
    requires |before| == |specs|
  {
    Staged(before, AfterAll(specs, before), Snapshot(specs), k)
  }

  /** Every bag as Resource.from_spec leaves it: a file resource's bag
      without `location`, any other bag unchanged. */
  function AfterAll(specs: ResourceSpecs, before: seq<map<string, Json>>): (after: seq<map<string, Json>>)
    requires |before| == |specs|
    ensures |after| == |specs|
  {
    ZipWith((s: (int, ResourceSpec), extra: map<string, Json>) => ExtrasAfter(s.1.tag, extra), specs, before)
  }

  /** Entry i of `AfterAll` is the bag of spec i after Resource.from_spec. */
  lemma AfterAllAt(specs: ResourceSpecs, before: seq<map<string, Json>>, i: nat)
    requires |before| == |specs| && i < |specs|
    ensures AfterAll(specs, before)[i] == ExtrasAfter(specs[i].1.tag, before[i])
  {
    ZipWithAt((s: (int, ResourceSpec), extra: map<string, Json>) => ExtrasAfter(s.1.tag, extra), specs, before, i);
  }

  /** `now` is `before` with its first k entries replaced by those of `after`. */
  predicate Staged(before: seq<map<string, Json>>, after: seq<map<string, Json>>, now: seq<map<string, Json>>, k: nat)
    requires |before| == |after| == |now|
  {
    forall i :: 0 <= i < |now| ==> now[i] == if i < k then after[i] else before[i]
  }

  /** Resolving entry k changes its own bag and no other. */
  lemma StagedNext(before: seq<map<string, Json>>, after: seq<map<string, Json>>, mid: seq<map<string, Json>>, post: seq<map<string, Json>>, k: nat)
    requires |before| == |after| == |mid| == |post| && k < |post|
    requires Staged(before, after, mid, k)
    requires forall i :: 0 <= i < |post| && i != k ==> post[i] == mid[i]
    requires post[k] == after[k]
    ensures Staged(before, after, post, k + 1)
  {
  }

  /** How many specs Resource.from_spec ran on: all of them, or up to and
      including the first that failed. */
  function Processed(specs: ResourceSpecs, extras: seq<map<string, Json>>, env: Env): (n: nat)
    requires |extras| == |specs|
    ensures n <= |specs|
  {
    var j := FirstErr(Outcomes(specs, extras, env));
    if j < |specs| then j + 1 else |specs|
  }

  /** The resolution loop of CSVMapper.from_mapfile: Resource.from_spec on
      each declared resource in turn. Each file resource loses `location`
      from its options bag, in the caller's dict; specs after a failing one
      are left untouched. */
  method ResolveResources(specs: ResourceSpecs, env: Env) returns (r: Result<map<int, Resource>>)
    requires DistinctExtras(specs)
    modifies AllExtras(specs)
    ensures r == ResolveAll(specs, old(Snapshot(specs)), env)
    ensures ResolvedUpTo(specs, old(Snapshot(specs)), Processed(specs, old(Snapshot(specs)), env))
  {
    ghost var before := Snapshot(specs);
    ghost var outcomes := Outcomes(specs, before, env);
    ghost var done: seq<Resource> := [];
    var resolved: map<int, Resource> := map[];
    for k := 0 to |specs|
      invariant |done| == k
      invariant forall i :: 0 <= i < k ==> outcomes[i] == Ok(done[i])
      invariant resolved == Register(Ids(specs[..k]), done)
      invariant ResolvedUpTo(specs, before, k)
    {
      var res := ResolveOne(specs, k, env, before);
      if res.Err? {
        FirstErrAt(outcomes, k);
        return Err(res.error);
      }
      RegisterNext(specs, k, done, res.value);
      ghost var prev := done;
      done := done + [res.value];
      forall i | 0 <= i < k + 1
        ensures outcomes[i] == Ok(done[i])
      {
        if i < k {
          assert done[i] == prev[i];
        }
      }
      resolved := resolved[specs[k].0 := res.value];
    }
    assert specs[..|specs|] == specs;
    assert Collect(outcomes).value == done;
    r := Ok(resolved);
  }

  /** One step of the resolution loop: Resource.from_spec on spec k, whose
      dict is the only one it changes. */
  method ResolveOne(specs: ResourceSpecs, k: nat, env: Env, ghost before: seq<map<string, Json>>) returns (res: Result<Resource>)
    requires DistinctExtras(specs)
    requires k < |specs| && |before| == |specs|
    requires ResolvedUpTo(specs, before, k)
    modifies AllExtras(specs)
    ensures res == Outcomes(specs, before, env)[k]
    ensures ResolvedUpTo(specs, before, k + 1)
  {
    ghost var after := AfterAll(specs, before);
    ghost var mid := Snapshot(specs);
    assert mid[k] == before[k];
    label Before:
    res := ResourceFromSpec(specs[k].0, specs[k].1, env);
    ghost var post := Snapshot(specs);
    forall i | 0 <= i < |specs| && i != k
      ensures post[i] == mid[i]
    {
      assert post[i] == EntriesOf(specs[i].1);
      assert mid[i] == old@Before(EntriesOf(specs[i].1));
      if specs[i].1.extra.Some? {
        if specs[k].1.extra.Some? {
          DistinctAt(specs, i, k);
        }
        assert specs[i].1.extra.value !in ExtraObjects(specs[k].1);
      }
    }
    AfterAllAt(specs, before, k);
    StagedNext(before, after, mid, post, k);
    OutcomeAt(specs, before, env, k);
  }

  /** Two different specs never hold the same dict object. */
  lemma DistinctAt(specs: ResourceSpecs, i: nat, j: nat)
    requires DistinctExtras(specs)
    requires i < |specs| && j < |specs| && i != j
    requires specs[i].1.extra.Some? && specs[j].1.extra.Some?
    ensures specs[i].1.extra.value != specs[j].1.extra.value
  {
    if j < i {
      DistinctAt(specs, j, i);
    }
  }

  /** Registering one more resolved spec adds its id to the dict. */
  lemma RegisterNext(specs: ResourceSpecs, k: nat, done: seq<Resource>, next: Resource)
    requires k < |specs| && |done| == k
    ensures Register(Ids(specs[..k + 1]), done + [next]) == Register(Ids(specs[..k]), done)[specs[k].0 := next]
  {
    var ids := Ids(specs[..k + 1]);
    assert ids[..k] == Ids(specs[..k]);
    assert (done + [next])[..k] == done;
  }

  /** The map file as json.load gives it: the `resources` object, in key
      order, and the `maps` list. */
  datatype MapFile = MapFile(resources: Option<ResourceSpecs>, maps: Option<seq<MapSpec>>)

  /** mapfile.get('resources', {}) */
  function DeclaredResources(mapfile: MapFile): ResourceSpecs {
    mapfile.resources.GetOr([])
  }

  /** What CSVMapper.from_mapfile builds from a map file whose resource
      specs hold the options bags `extras`: every resource is resolved
      first, then every map is compiled against the resources keyed by id;
      the first exception ends it. */
  function MapfileMaps(mapfile: MapFile, extras: seq<map<string, Json>>, env: Env, builtins: PyObj): (r: Result<seq<ValueMap>>)
    requires |extras| == |DeclaredResources(mapfile)|
    ensures ResolveAll(DeclaredResources(mapfile), extras, env).Err? ==>
      r == Err(ResolveAll(DeclaredResources(mapfile), extras, env).error)
    ensures ResolveAll(DeclaredResources(mapfile), extras, env).Ok? ==>
      (r.Ok? <==> forall i :: 0 <= i < |mapfile.maps.GetOr([])| ==>
         ValueMapFromSpec(mapfile.maps.GetOr([])[i], ResolveAll(DeclaredResources(mapfile), extras, env).value, builtins).Ok?)
    ensures r.Ok? ==> |r.value| == |mapfile.maps.GetOr([])| && forall i :: 0 <= i < |mapfile.maps.GetOr([])| ==>
      ValueMapFromSpec(mapfile.maps.GetOr([])[i], ResolveAll(DeclaredResources(mapfile), extras, env).value, builtins) == Ok(r.value[i])
    ensures ResolveAll(DeclaredResources(mapfile), extras, env).Ok? ==>
      r == CompileMaps(mapfile.maps.GetOr([]), ResolveAll(DeclaredResources(mapfile), extras, env).value, builtins)
  {
    match ResolveAll(DeclaredResources(mapfile), extras, env)
    case Err(e) => Err(e)
    case Ok(resources) => CompileMaps(mapfile.maps.GetOr([]), resources, builtins)
  }

  /** CSVMapper.from_mapfile as the code is written: the resolved resources
      are kept as a list, in declaration order, and every map is compiled
      against that list. */
  function MapfileMapsAsWritten(mapfile: MapFile, extras: seq<map<string, Json>>, env: Env, builtins: PyObj): (r: Result<seq<ValueMap>>)
    requires |extras| == |DeclaredResources(mapfile)|
    ensures Collect(Outcomes(DeclaredResources(mapfile), extras, env)).Err? ==>
      r == Err(Collect(Outcomes(DeclaredResources(mapfile), extras, env)).error)
  {
    match Collect(Outcomes(DeclaredResources(mapfile), extras, env))
    case Err(e) => Err(e)
    case Ok(resources) =>
      var maps := mapfile.maps.GetOr([]);
      Collect(seq(|maps|, i requires 0 <= i < |maps| => ValueMapFromListResources(maps[i], resources, builtins)))
  }
}

=== FILE: mapper_facts.dfy ===
/** Properties of the value-map compiler, of resource resolution as the
    mapper runs it, and of the row stream. */
module MapperFacts {
  import opened PyRuntime
  import opened Resources
  import opened Invokers
  import opened Mapper
  import ResourceFacts

  // ---------------------------------------------------------------
  // Apply types
  // ---------------------------------------------------------------

  /** Normalising an apply tag twice changes nothing more: the result has
      no hyphen and no lower-case ASCII letter left. */
  lemma NormalizeApplyTagIdempotent(raw: string)
    ensures NormalizeApplyTag(NormalizeApplyTag(raw)) == NormalizeApplyTag(raw)
  {
    var once := NormalizeApplyTag(raw);
    var twice := NormalizeApplyTag(once);
    forall i | 0 <= i < |raw|
      ensures twice[i] == once[i]
    {
      assert once[i] == UpperChar(if raw[i] == '-' then '_' else raw[i]);
      assert once[i] != '-';
      assert !('a' <= once[i] <= 'z');
    }
  }

  /** A tag that normalises to the name of an apply type selects that type. */
  lemma ParseApplyByMemberName(raw: string, t: ApplyType)
    requires NormalizeApplyTag(raw) == ApplyTypeName(t)
    ensures ParseApplyType(Some(raw)) == Ok(t)
  {
  }

  /** Case and the choice between '-' and '_' do not matter in an apply
      tag: two tags that normalise alike select the same type, or are both
      rejected. */
  lemma ApplyTagsAlike(a: string, b: string)
    requires NormalizeApplyTag(a) == NormalizeApplyTag(b)
    ensures ParseApplyType(Some(a)).Ok? <==> ParseApplyType(Some(b)).Ok?
    ensures ParseApplyType(Some(a)).Ok? ==> ParseApplyType(Some(a)).value == ParseApplyType(Some(b)).value
  {
    var ra := ParseApplyType(Some(a));
    if ra.Ok? {
      ParseApplyByMemberName(b, ra.value);
    }
  }

  /** A missing `type` key means a builtin function. */
  lemma MissingApplyTagIsBuiltinFunction()
    ensures ParseApplyType(None) == Ok(BuiltinFunction)
  {
    DefaultApplyTag();
  }

  /** The apply tag is not stripped: surrounding whitespace makes it
      unknown, and the error names the tag as given. */
  lemma ApplyTagWithLeadingSpaceRejected(raw: string)
    requires raw != [] && IsSpace(raw[0])
    ensures ParseApplyType(Some(raw)) == Err(ApplyTypeError(raw + " is not a valid apply type"))
  {
    var u := NormalizeApplyTag(raw);
    assert u[0] == raw[0];
    forall t: ApplyType
      ensures ApplyTypeName(t) != u
    {
      assert ApplyTypeName(t)[0] == 'B' || ApplyTypeName(t)[0] == 'R';
    }
  }

  /** An unknown tag makes the map entry fail to compile with the apply
      type error, before any resolution of names. */
  lemma UnknownApplyTagRejected(spec: MapSpec, resources: map<int, Resource>, builtins: PyObj)
    requires spec.apply.Some? && spec.apply.value.tag.Some?
    requires forall t :: ApplyTypeName(t) != NormalizeApplyTag(spec.apply.value.tag.value)
    ensures ValueMapFromSpec(spec, resources, builtins) ==
      Err(ApplyTypeError(spec.apply.value.tag.value + " is not a valid apply type"))
  {
    assert Truthy(spec.apply.value);
  }

  /** RESOURCE_METHOD is a valid apply type, but the invoker table has no
      entry for it: the map fails to compile with a KeyError rather than
      an apply type error. */
  lemma ResourceMethodFailsAtDispatch(spec: MapSpec, resources: map<int, Resource>, builtins: PyObj)
    requires spec.apply.Some? && spec.apply.value.tag.Some?
    requires NormalizeApplyTag(spec.apply.value.tag.value) == ApplyTypeName(ResourceMethod)
    ensures ValueMapFromSpec(spec, resources, builtins) == Err(KeyError("ApplyType." + ApplyTypeName(ResourceMethod)))
  {
    assert Truthy(spec.apply.value);
    ParseApplyByMemberName(spec.apply.value.tag.value, ResourceMethod);
  }

  // ---------------------------------------------------------------
  // Compiling one map
  // ---------------------------------------------------------------

  /** An entry without `apply` (or with an empty one) copies the whole row
      into its column, whatever its `target` and `uses` say. */
  lemma PassThroughCopiesWholeRow(spec: MapSpec, resources: map<int, Resource>, builtins: PyObj, row: Row)
    requires spec.apply.None? || !Truthy(spec.apply.value)
    ensures ValueMapFromSpec(spec, resources, builtins) == Ok(PassThrough)
    ensures Eval(PassThrough, row) == Ok(RowTuple(row))
  {
  }

  /** An entry whose `apply` tag selects BUILTIN_FUNCTION (or has no tag
      at all) compiles exactly as a builtin function invoker on `target`
      (default 0) with the spec's `args`. */
  lemma FunctionTagBuildsFunctionInvoker(spec: MapSpec, resources: map<int, Resource>, builtins: PyObj)
    requires spec.apply.Some? && Truthy(spec.apply.value)
    requires ParseApplyType(spec.apply.value.tag) == Ok(BuiltinFunction)
    ensures var target := spec.target.GetOr(0);
      var required := RequiredResources(spec.uses.GetOr([]), resources);
      ValueMapFromSpec(spec, resources, builtins) ==
        match NewBuiltinFunctionInvoker(target, required, spec.apply.value, builtins)
        case Err(e) => Err(e)
        case Ok(inv) => Ok(Invoke(inv))
  {
  }

  /** An entry whose `apply` tag selects BUILTIN_METHOD compiles exactly as
      a builtin method invoker on `target` (default 0) with the spec's
      `args`. */
  lemma MethodTagBuildsMethodInvoker(spec: MapSpec, resources: map<int, Resource>, builtins: PyObj)
    requires spec.apply.Some? && Truthy(spec.apply.value)
    requires ParseApplyType(spec.apply.value.tag) == Ok(BuiltinMethod)
    ensures var target := spec.target.GetOr(0);
      var required := RequiredResources(spec.uses.GetOr([]), resources);
      ValueMapFromSpec(spec, resources, builtins) ==
        match NewBuiltinMethodInvoker(target, required, spec.apply.value, builtins)
        case Err(e) => Err(e)
        case Ok(inv) => Ok(Invoke(inv))
  {
  }

  /** An entry whose `apply` has no `type` is a builtin function entry. */
  lemma DefaultApplyIsBuiltinFunction(spec: MapSpec, resources: map<int, Resource>, builtins: PyObj)
    requires spec.apply.Some? && spec.apply.value.tag.None? && Truthy(spec.apply.value)
    ensures var target := spec.target.GetOr(0);
      var required := RequiredResources(spec.uses.GetOr([]), resources);
      ValueMapFromSpec(spec, resources, builtins) ==
        match NewBuiltinFunctionInvoker(target, required, spec.apply.value, builtins)
        case Err(e) => Err(e)
        case Ok(inv) => Ok(Invoke(inv))
  {
    MissingApplyTagIsBuiltinFunction();
    FunctionTagBuildsFunctionInvoker(spec, resources, builtins);
  }

  /** A compiled function invoker applies the named builtin to the target
      cell of every row, with the same `args`. */
  lemma CompiledFunctionReadsTarget(spec: MapSpec, resources: map<int, Resource>, builtins: PyObj, row: Row)
    requires spec.apply.Some? && Truthy(spec.apply.value)
    requires ParseApplyType(spec.apply.value.tag) == Ok(BuiltinFunction)
    requires ValueMapFromSpec(spec, resources, builtins).Ok?
    requires Index(row, spec.target.GetOr(0)).Ok?
    ensures var name := spec.apply.value.name.value;
      name in builtins.attrs && ValueMapFromSpec(spec, resources, builtins).value.Invoke?
      && match builtins.attrs[name].call
         case None => Eval(ValueMapFromSpec(spec, resources, builtins).value, row).Err?
         case Some(f) =>
           Eval(ValueMapFromSpec(spec, resources, builtins).value, row).Ok?
           <==> f(Index(row, spec.target.GetOr(0)).value, spec.apply.value.args).Ok?
  {
    FunctionTagBuildsFunctionInvoker(spec, resources, builtins);
  }

  /** A compiled method invoker returns what the method `name` of the
      builtin `source` gives on the target cell of every row, with the same
      `args`. */
  lemma CompiledMethodReadsTarget(spec: MapSpec, resources: map<int, Resource>, builtins: PyObj, row: Row)
    requires spec.apply.Some? && Truthy(spec.apply.value)
    requires ParseApplyType(spec.apply.value.tag) == Ok(BuiltinMethod)
    requires ValueMapFromSpec(spec, resources, builtins).Ok?
    requires Index(row, spec.target.GetOr(0)).Ok?
    ensures var source := spec.apply.value.source.value;
      var name := spec.apply.value.name.value;
      source in builtins.attrs && name in builtins.attrs[source].attrs
      && ValueMapFromSpec(spec, resources, builtins).value.Invoke?
      && match builtins.attrs[source].attrs[name].call
         case None => Eval(ValueMapFromSpec(spec, resources, builtins).value, row).Err?
         case Some(f) =>
           Eval(ValueMapFromSpec(spec, resources, builtins).value, row)
           == f(Index(row, spec.target.GetOr(0)).value, spec.apply.value.args)
  {
    MethodTagBuildsMethodInvoker(spec, resources, builtins);
  }

  // ---------------------------------------------------------------
  // Resolving the resources of a map file
  // ---------------------------------------------------------------

  /** Resolved resources are keyed by their declared ids. */
  lemma ResolvedKeysAreDeclaredIds(specs: ResourceSpecs, extras: seq<map<string, Json>>, env: Env)
    requires |extras| == |specs|
    requires ResolveAll(specs, extras, env).Ok?
    ensures ResolveAll(specs, extras, env).value.Keys == set j | 0 <= j < |specs| :: specs[j].0
  {
    var ids := Ids(specs);
    var resolved := Collect(Outcomes(specs, extras, env)).value;
    assert ResolveAll(specs, extras, env).value == Register(ids, resolved);
    assert (set j | 0 <= j < |ids| :: ids[j]) == set j | 0 <= j < |specs| :: specs[j].0;
  }

  /** The resource registered under an id is what Resource.from_spec gave
      for its spec, and carries that id. (The ids are the keys of one JSON
      object, so no later spec declares the same id.) */
  lemma ResolvedResourceIsItsOutcome(specs: ResourceSpecs, extras: seq<map<string, Json>>, env: Env, i: nat)
    requires |extras| == |specs| && i < |specs|
    requires ResolveAll(specs, extras, env).Ok?
    requires forall j :: i < j < |specs| ==> specs[j].0 != specs[i].0
    ensures specs[i].0 in ResolveAll(specs, extras, env).value
    ensures var resource := ResolveAll(specs, extras, env).value[specs[i].0];
      Ok(resource) == ResourceOutcome(specs[i].0, specs[i].1.tag, specs[i].1.name, extras[i], env)
      && resource.id == specs[i].0
  {
    var outcomes := Outcomes(specs, extras, env);
    var resolved := Collect(outcomes).value;
    var ids := Ids(specs);
    var m := Register(ids, resolved);
    assert ResolveAll(specs, extras, env).value == m;
    assert ids[i] == specs[i].0;
    assert LastOccurrence(ids, i);
    assert m[ids[i]] == resolved[i];
    assert outcomes[i] == Ok(resolved[i]);
    OutcomeAt(specs, extras, env, i);
    ResourceFacts.ResourceKeepsIdAndKind(specs[i].0, specs[i].1.tag, specs[i].1.name, extras[i], env);
  }

  /** Resolution stops at the first spec that fails, with its exception;
      every spec before it resolved. */
  lemma ResolutionReportsFirstFailure(specs: ResourceSpecs, extras: seq<map<string, Json>>, env: Env)
    requires |extras| == |specs|
    requires ResolveAll(specs, extras, env).Err?
    ensures var j := Processed(specs, extras, env) - 1;
      0 <= j < |specs|
      && ResourceOutcome(specs[j].0, specs[j].1.tag, specs[j].1.name, extras[j], env) == Err(ResolveAll(specs, extras, env).error)
      && forall i :: 0 <= i < j ==> ResourceOutcome(specs[i].0, specs[i].1.tag, specs[i].1.name, extras[i], env).Ok?
  {
    var outcomes := Outcomes(specs, extras, env);
    var collected := Collect(outcomes);
    var j := Processed(specs, extras, env) - 1;
    assert ResolveAll(specs, extras, env) == Err(collected.error);
    assert j == FirstErr(outcomes);
    assert outcomes[j] == Err(collected.error);
    OutcomeAt(specs, extras, env, j);
    forall i | 0 <= i < j
      ensures ResourceOutcome(specs[i].0, specs[i].1.tag, specs[i].1.name, extras[i], env).Ok?
    {
      OutcomeAt(specs, extras, env, i);
    }
  }

  // ---------------------------------------------------------------
  // The row stream
  // ---------------------------------------------------------------

  /** Every output row has one column per map, and column i is map i
      applied to the input row at the same position. */
  lemma OutputRowsAreColumnwise(mappings: seq<ValueMap>, rows: seq<Row>, k: nat, i: nat)
    requires k < |MapStream(mappings, rows).emitted| && i < |mappings|
    ensures |MapStream(mappings, rows).emitted[k]| == |mappings|
    ensures Eval(mappings[i], rows[k]) == Ok(MapStream(mappings, rows).emitted[k][i])
  {
    var s := MapStream(mappings, rows);
    assert MapRow(mappings, rows[k]) == Ok(s.emitted[k]);
  }

  /** The stream is lazy in the input: what it yields for a prefix of the
      rows is a prefix of what it yields for all of them, and a failure
      within the prefix is the failure of the whole stream. */
  lemma {:induction false} StreamOfPrefixIsPrefix(mappings: seq<ValueMap>, done: seq<Row>, rest: seq<Row>)
    ensures MapStream(mappings, done).emitted <= MapStream(mappings, done + rest).emitted
    ensures MapStream(mappings, done).failure.Some? ==> MapStream(mappings, done + rest) == MapStream(mappings, done)
    decreases |rest|
  {
    if MapStream(mappings, done).failure.Some? {
      StreamStopsAtFailure(mappings, done, rest);
    } else if rest != [] {
      var n := |rest| - 1;
      var rows, shorter := done + rest, done + rest[..n];
      StreamOfPrefixIsPrefix(mappings, done, rest[..n]);
      assert rows[..|rows| - 1] == shorter;
      StreamGrowsByOneRow(mappings, rows);
    } else {
      assert done + rest == done;
    }
  }

  /** One more row only ever appends to what the stream has yielded. */
  lemma StreamGrowsByOneRow(mappings: seq<ValueMap>, rows: seq<Row>)
    requires rows != []
    ensures MapStream(mappings, rows[..|rows| - 1]).emitted <= MapStream(mappings, rows).emitted
  {
  }

  /** A map file of pass-through entries only never fails on any input,
      and turns each row into that many copies of (row,). */
  lemma PassThroughMapperCopiesRows(mappings: seq<ValueMap>, rows: seq<Row>)
    requires forall i :: 0 <= i < |mappings| ==> mappings[i].PassThrough?
    ensures MapStream(mappings, rows).failure.None?
    ensures |MapStream(mappings, rows).emitted| == |rows|
    ensures forall k, i :: 0 <= k < |rows| && 0 <= i < |mappings| ==>
      MapStream(mappings, rows).emitted[k][i] == RowTuple(rows[k])
  {
    var s := MapStream(mappings, rows);
    forall k, i | 0 <= k < |rows| && 0 <= i < |mappings|
      ensures s.emitted[k][i] == RowTuple(rows[k])
    {
      OutputRowsAreColumnwise(mappings, rows, k, i);
    }
  }

  // ---------------------------------------------------------------
  // The resources list of CSVMapper.from_mapfile
  // ---------------------------------------------------------------

  /** An entry without `uses` never looks anything up, so it compiles
      alike against the list of resources and against the map keyed by
      id. */
  lemma ListAndMapAgreeWithoutUses(spec: MapSpec, listed: seq<Resource>, keyed: map<int, Resource>, builtins: PyObj)
    requires spec.uses.GetOr([]) == []
    ensures ValueMapFromListResources(spec, listed, builtins) == ValueMapFromSpec(spec, keyed, builtins)
  {
    assert RequiredResources(spec.uses.GetOr([]), keyed) == [];
  }

  /** A map file none of whose entries lists `uses` builds the same maps
      as written and keyed by id: the list only matters through .get. */
  lemma AsWrittenAgreesWithoutUses(mapfile: MapFile, extras: seq<map<string, Json>>, env: Env, builtins: PyObj)
    requires |extras| == |DeclaredResources(mapfile)|
    requires forall i :: 0 <= i < |mapfile.maps.GetOr([])| ==> mapfile.maps.GetOr([])[i].uses.GetOr([]) == []
    ensures MapfileMapsAsWritten(mapfile, extras, env, builtins) == MapfileMaps(mapfile, extras, env, builtins)
  {
    var specs := DeclaredResources(mapfile);
    var maps := mapfile.maps.GetOr([]);
    match Collect(Outcomes(specs, extras, env))
    case Err(_) =>
    case Ok(resources) =>
      var keyed := Register(Ids(specs), resources);
      var listedMaps := seq(|maps|, i requires 0 <= i < |maps| => ValueMapFromListResources(maps[i], resources, builtins));
      var keyedMaps := seq(|maps|, i requires 0 <= i < |maps| => ValueMapFromSpec(maps[i], keyed, builtins));
      forall i | 0 <= i < |maps|
        ensures listedMaps[i] == keyedMaps[i]
      {
        ListAndMapAgreeWithoutUses(maps[i], resources, keyed, builtins);
      }
      assert listedMaps == keyedMaps;
  }

  /** As written, from_mapfile hands ValueMap.from_spec a list of
      resources, and list has no .get: once the resources resolve, the
      first entry that lists `uses` makes the whole map file fail with
      the AttributeError of list.get, provided the entries before it
      compile. */
  lemma ListOfResourcesRejectsUses(mapfile: MapFile, extras: seq<map<string, Json>>, env: Env, builtins: PyObj, j: nat)
    requires |extras| == |DeclaredResources(mapfile)|
    requires ResolveAll(DeclaredResources(mapfile), extras, env).Ok?
    requires j < |mapfile.maps.GetOr([])| && mapfile.maps.GetOr([])[j].uses.GetOr([]) != []
    requires forall i :: 0 <= i < j ==> mapfile.maps.GetOr([])[i].uses.GetOr([]) == []
    requires forall i :: 0 <= i < j ==>
      ValueMapFromSpec(mapfile.maps.GetOr([])[i], ResolveAll(DeclaredResources(mapfile), extras, env).value, builtins).Ok?
    ensures MapfileMapsAsWritten(mapfile, extras, env, builtins) == Err(AttributeError("get"))
  {
    var maps := mapfile.maps.GetOr([]);
    var resources := Collect(Outcomes(DeclaredResources(mapfile), extras, env)).value;
    ListedResourcesRejectUses(maps, resources, ResolveAll(DeclaredResources(mapfile), extras, env).value, builtins, j);
  }

  /** The list-level step: entry j lists `uses`, every earlier one has none
      and compiles, so entry j is the first to fail, with list.get. */
  lemma ListedResourcesRejectUses(maps: seq<MapSpec>, resources: seq<Resource>, keyed: map<int, Resource>, builtins: PyObj, j: nat)
    requires j < |maps| && maps[j].uses.GetOr([]) != []
    requires forall i :: 0 <= i < j ==> maps[i].uses.GetOr([]) == [] && ValueMapFromSpec(maps[i], keyed, builtins).Ok?
    ensures Collect(seq(|maps|, i requires 0 <= i < |maps| => ValueMapFromListResources(maps[i], resources, builtins))) == Err(AttributeError("get"))
  {
    var listed := seq(|maps|, i requires 0 <= i < |maps| => ValueMapFromListResources(maps[i], resources, builtins));
    forall i | 0 <= i < j
      ensures listed[i].Ok?
    {
      ListAndMapAgreeWithoutUses(maps[i], resources, keyed, builtins);
    }
    FirstErrAt(listed, j);
  }

  /** Keyed by id, a map file whose resources resolve and whose entries
      have no `apply` compiles to pass-throughs, whatever `uses` they list. */
  lemma PassThroughMapfileCompiles(mapfile: MapFile, extras: seq<map<string, Json>>, env: Env, builtins: PyObj)
    requires |extras| == |DeclaredResources(mapfile)|
    requires ResolveAll(DeclaredResources(mapfile), extras, env).Ok?
    requires forall i :: 0 <= i < |mapfile.maps.GetOr([])| ==> mapfile.maps.GetOr([])[i].apply.None?
    ensures MapfileMaps(mapfile, extras, env, builtins) == Ok(seq(|mapfile.maps.GetOr([])|, _ => PassThrough))
  {
    PassThroughMapsCompile(mapfile.maps.GetOr([]), ResolveAll(DeclaredResources(mapfile), extras, env).value, builtins);
  }

  /** Map entries without `apply` all compile to pass-throughs, whatever
      the resources. */
  lemma PassThroughMapsCompile(maps: seq<MapSpec>, resources: map<int, Resource>, builtins: PyObj)
    requires forall i :: 0 <= i < |maps| ==> maps[i].apply.None?
    ensures CompileMaps(maps, resources, builtins) == Ok(seq(|maps|, _ => PassThrough))
  {
    var compiled := CompileMaps(maps, resources, builtins);
    assert compiled.Ok?;
    assert compiled.value == seq(|maps|, _ => PassThrough);
  }

  /** The smallest map file that shows it: no resources and one entry
      {"uses": [0]}. As written it raises AttributeError; keyed by id, the
      undeclared id reads as None and the entry passes rows through. */
  lemma UsesWithoutResourcesExample(env: Env, builtins: PyObj)
    ensures var mapfile := MapFile(None, Some([MapSpec(None, Some([0]), None)]));
      MapfileMapsAsWritten(mapfile, [], env, builtins) == Err(AttributeError("get"))
      && MapfileMaps(mapfile, [], env, builtins) == Ok([PassThrough])
  {
    var mapfile := MapFile(None, Some([MapSpec(None, Some([0]), None)]));
    assert mapfile.maps.GetOr([])[0].uses.GetOr([]) != [];
    assert Collect(Outcomes([], [], env)) == Ok([]);
    ListOfResourcesRejectsUses(mapfile, [], env, builtins, 0);
    PassThroughMapfileCompiles(mapfile, [], env, builtins);
    assert seq(1, _ => PassThrough) == [PassThrough];
  }
}

=== FILE: pyruntime.dfy ===
/** The part of the Python runtime that the transformer relies on: Python's
    None and raised exceptions as Option and Result values, JSON documents
    as json.load produces them, the values a transformer yields, and the
    few str and list operations the core calls (str.upper, str.strip,
    str.replace, row indexing). */
module PyRuntime {

  datatype Option<+T> = None | Some(value: T) {
    /** dict.get(key, default) once the lookup is done */
    function GetOr(default: T): T {
      match this
      case Some(v) => v
      case None => default
    }
  }

  /** A JSON value as json.load builds it (numbers are integers here). */
  datatype Json =
    | JNull
    | JBool(b: bool)
    | JInt(i: int)
    | JStr(s: string)
    | JArray(items: seq<Json>)
    | JObject(fields: map<string, Json>)

  /** type(v).__name__ for the Python value json.load gives for v. */
  function PyTypeName(v: Json): string {
    match v
    case JNull => "NoneType"
    case JBool(_) => "bool"
    case JInt(_) => "int"
    case JStr(_) => "str"
    case JArray(_) => "list"
    case JObject(_) => "dict"
  }

  /** The exceptions that the modelled paths raise. */
  datatype Error =
    | ApplyTypeError(message: string)
    | InvalidResourceError(message: string)
    | KeyError(key: string)
    | AttributeError(attribute: string)
    | TypeError(message: string)
    | IndexError(index: int)
    | FileNotFoundError(path: string)
    | ModuleNotFoundError(moduleName: string)
    | Raised(message: string)

  /** A returned value, or the exception that was raised instead. */
  datatype Result<+T> = Ok(value: T) | Err(error: Error)

  /** One row as csv.reader yields it. */
  type Row = seq<string>

  /** A value that a compiled transformer produces for one column. */
  datatype Value =
    | PyNone
    | PyStr(s: string)
    | RowTuple(row: Row)     // the argument tuple (row,)
    | PyObject(handle: nat)  // any other object a builtin may return

  /** f"{x}" for an optional string: a missing value prints as None. */
  function Repr(x: Option<string>): string {
    match x
    case Some(s) => s
    case None => "None"
  }

  /** row[i] on a Python list: negative indices count from the end, and
      anything outside -len(row) .. len(row)-1 raises IndexError. */
  function Index(row: Row, i: int): (r: Result<string>)
    ensures r.Ok? <==> -|row| <= i < |row|
    ensures 0 <= i < |row| ==> r == Ok(row[i])
    ensures -|row| <= i < 0 ==> r == Ok(row[|row| + i])
    ensures r.Err? ==> r.error == IndexError(i)
  {
    if 0 <= i < |row| then Ok(row[i])
    else if -|row| <= i < 0 then Ok(row[|row| + i])
    else Err(IndexError(i))
  }

  /** str.isspace for one character: the characters Python's str.strip removes. */
  predicate IsSpace(c: char) {
    var n := c as int;
    (9 <= n <= 13) || (28 <= n <= 32) || n == 0x85 || n == 0xA0 || n == 0x1680
    || (0x2000 <= n <= 0x200A) || n == 0x2028 || n == 0x2029 || n == 0x202F
    || n == 0x205F || n == 0x3000
  }

  /** str.upper on one character (ASCII letters only). */
  function UpperChar(c: char): (u: char)
    ensures 'a' <= c <= 'z' ==> 'A' <= u <= 'Z' && u as int == c as int - 32
    ensures !('a' <= c <= 'z') ==> u == c
  {
    if 'a' <= c <= 'z' then (c as int - 32) as char else c
  }

  /** str.upper: every character is upper-cased in place. */
  function Upper(s: string): (r: string)
    ensures |r| == |s|
    ensures forall i :: 0 <= i < |s| ==> r[i] == UpperChar(s[i])
  {
    seq(|s|, i requires 0 <= i < |s| => UpperChar(s[i]))
  }

  /** str.replace(old, new) for single characters. */
  function Replace(s: string, from: char, to: char): (r: string)
    ensures |r| == |s|
    ensures forall i :: 0 <= i < |s| ==> r[i] == if s[i] == from then to else s[i]
  {
    seq(|s|, i requires 0 <= i < |s| => if s[i] == from then to else s[i])
  }

  /** str.lstrip(): the longest suffix that does not start with whitespace. */
  function StripLeading(s: string): (r: string)
    ensures |r| <= |s| && r == s[|s| - |r|..]
    ensures r == [] || !IsSpace(r[0])
    ensures forall i :: 0 <= i < |s| - |r| ==> IsSpace(s[i])
  {
    if s != [] && IsSpace(s[0]) then StripLeading(s[1..]) else s
  }

  /** str.rstrip(): the longest prefix that does not end with whitespace. */
  function StripTrailing(s: string): (r: string)
    ensures |r| <= |s| && r == s[..|r|]
    ensures r == [] || !IsSpace(r[|r| - 1])
    ensures forall i :: |r| <= i < |s| ==> IsSpace(s[i])
  {
    if s != [] && IsSpace(s[|s| - 1]) then StripTrailing(s[..|s| - 1]) else s
  }

  /** How many leading whitespace characters str.strip() removes. */
  function StripStart(s: string): (n: nat)
    ensures n <= |s|
  {
    |s| - |StripLeading(s)|
  }

  /** str.strip(): whitespace is removed from both ends and nothing else:
      the result is the run of `s` from StripStart(s) on, with only
      whitespace before and after it. */
  function Strip(s: string): (r: string)
    ensures r == [] || (!IsSpace(r[0]) && !IsSpace(r[|r| - 1]))
    ensures StripStart(s) + |r| <= |s| && r == s[StripStart(s)..StripStart(s) + |r|]
    ensures forall k :: 0 <= k < StripStart(s) ==> IsSpace(s[k])
    ensures forall k :: StripStart(s) + |r| <= k < |s| ==> IsSpace(s[k])
  {
    var left := StripLeading(s);
    var r := StripTrailing(left);
    StripBothEnds(s, left, r);
    r
  }

  /** Stripping the leading whitespace (leaving `left`) and then the
      trailing whitespace (leaving `r`) leaves no whitespace at either end,
      and cuts out a run of the input with only whitespace after it. */
  lemma StripBothEnds(s: string, left: string, r: string)
    requires |left| <= |s| && left == s[|s| - |left|..] && (left == [] || !IsSpace(left[0]))
    requires |r| <= |left| && r == left[..|r|] && (r == [] || !IsSpace(r[|r| - 1]))
    requires forall j :: |r| <= j < |left| ==> IsSpace(left[j])
    ensures r == [] || (!IsSpace(r[0]) && !IsSpace(r[|r| - 1]))
    ensures r == s[|s| - |left|..|s| - |left| + |r|]
    ensures forall k :: |s| - |left| + |r| <= k < |s| ==> IsSpace(s[k])
  {
    var i := |s| - |left|;
    assert left[..|r|] == s[i..i + |r|];
    if r != [] {
      assert r[0] == left[0];
    }
    SpacesOfSuffix(s, i, left, |r|);
  }

  /** Whitespace at the end of the suffix s[i..] is whitespace at the end of `s`. */
  lemma SpacesOfSuffix(s: string, i: nat, left: string, m: nat)
    requires i <= |s| && left == s[i..] && m <= |left|
    requires forall j :: m <= j < |left| ==> IsSpace(left[j])
    ensures forall k :: i + m <= k < |s| ==> IsSpace(s[k])
  {
    forall k | i + m <= k < |s| ensures IsSpace(s[k]) {
      assert left[k - i] == s[k];
    }
  }

  /** The position of the first element that raised, or |rs| when none did. */
  function FirstErr<T>(rs: seq<Result<T>>): (j: nat)
    ensures j <= |rs|
    ensures forall i :: 0 <= i < j ==> rs[i].Ok?
    ensures j < |rs| ==> rs[j].Err?
    decreases |rs|
  {
    if rs == [] then 0
    else
      var n := |rs| - 1;
      var j := FirstErr(rs[..n]);
      if j < n || rs[n].Err? then j else |rs|
  }

  /** [f(x, y) for x, y in zip(xs, ys)] */
  function ZipWith<A, B, C>(f: (A, B) -> C, xs: seq<A>, ys: seq<B>): (zs: seq<C>)
    requires |xs| == |ys|
    ensures |zs| == |xs|
    decreases |xs|
  {
    if xs == [] then []
    else
      var n := |xs| - 1;
      ZipWith(f, xs[..n], ys[..n]) + [f(xs[n], ys[n])]
  }

  /** Element i of the zipped list is f applied to the i-th pair. */
  lemma {:induction false} ZipWithAt<A, B, C>(f: (A, B) -> C, xs: seq<A>, ys: seq<B>, i: nat)
    requires |xs| == |ys| && i < |xs|
    ensures ZipWith(f, xs, ys)[i] == f(xs[i], ys[i])
    decreases |xs|
  {
    var n := |xs| - 1;
    if i < n {
      ZipWithAt(f, xs[..n], ys[..n], i);
    }
  }

  /** The first failure is the element that raised after a run of values. */
  lemma FirstErrAt<T>(rs: seq<Result<T>>, k: nat)
    requires k < |rs| && rs[k].Err?
    requires forall i :: 0 <= i < k ==> rs[i].Ok?
    ensures FirstErr(rs) == k
  {
  }

  /** A list comprehension whose element expression may raise: the list of
      all the values, or the exception of the first element that raised. */
  function Collect<T>(rs: seq<Result<T>>): (r: Result<seq<T>>)
    ensures r.Ok? <==> FirstErr(rs) == |rs|
    ensures r.Ok? ==> |r.value| == |rs| && forall i :: 0 <= i < |rs| ==> rs[i] == Ok(r.value[i])
    ensures r.Err? ==> rs[FirstErr(rs)] == Err(r.error)
    decreases |rs|
  {
    if rs == [] then Ok([])
    else
      var n := |rs| - 1;
      match Collect(rs[..n])
      case Err(e) => Err(e)
      case Ok(prefix) =>
        match rs[n]
        case Err(e) => Err(e)
        case Ok(v) => Ok(prefix + [v])
  }
}

=== FILE: resources.dfy ===
/** The resource registry of csv_transform/resource.py: a resource spec
    from the map file names a kind (file or module), a name and an options
    bag; resolving it checks the kind tag, builds the injestor for that
    kind and asks it for the content handle. Opening a file and importing
    a module are foreign effects and are given as an Env. */
module Resources {
  import opened PyRuntime

  /** ResourceType: the closed set of resource kinds. */
  datatype ResourceType = File | Module

  /** The enum member name that ResourceType[...] looks up. */
  function ResourceTypeName(t: ResourceType): string {
    match t
    case File => "FILE"
    case Module => "MODULE"
  }

  /** The tag as ResourceType[...] receives it: stripped and upper-cased,
      with no hyphen handling. */
  function NormalizeResourceTag(raw: string): string {
    Upper(Strip(raw))
  }

  /** The type check of Resource.from_spec: a missing tag means "file";
      a tag that does not normalise to a member name is an
      InvalidResourceError naming the raw tag. */
  function ParseResourceType(tag: Option<string>): (r: Result<ResourceType>)
    ensures r.Ok? ==> ResourceTypeName(r.value) == NormalizeResourceTag(tag.GetOr("file"))
    ensures r.Err? ==> forall t :: ResourceTypeName(t) != NormalizeResourceTag(tag.GetOr("file"))
    ensures r.Err? ==> tag.Some? && r.error == InvalidResourceError(tag.value + " is not a valid resource type")
  {
    var name := NormalizeResourceTag(tag.GetOr("file"));
    DefaultResourceTag();
    if name == ResourceTypeName(File) then Ok(File)
    else if name == ResourceTypeName(Module) then Ok(Module)
    else Err(InvalidResourceError(Repr(tag) + " is not a valid resource type"))
  }

  /** The default tag "file" names the FILE member. */
  lemma DefaultResourceTag()
    ensures NormalizeResourceTag("file") == "FILE"
  {
    assert StripLeading("file") == "file";
    assert StripTrailing("file") == "file";
    var u := Upper("file");
    assert u[0] == 'F' && u[1] == 'I' && u[2] == 'L' && u[3] == 'E';
  }

  /** The injestor classes that resource_map can name. */
  datatype InjestorKind = FileInjestor | ModuleInjestor

  /** resource_map.get(t): the injestor registered for a resource kind.
      Every kind has one, and the two kinds have different injestors. */
  function ResourceMap(t: ResourceType): (r: Option<InjestorKind>)
    ensures r.Some?
    ensures r.value == FileInjestor <==> t == File
  {
    match t
    case File => Some(FileInjestor)
    case Module => Some(ModuleInjestor)
  }

  /** A Python dict that the caller owns and that the injestor may change
      in place: the options bag `extra` of a resource spec. */
  class Options {
    var entries: map<string, Json>

    constructor (entries: map<string, Json>)
      ensures this.entries == entries
    {
      this.entries := entries;
    }

    /** dict.pop(key, default) */
    method Pop(key: string, default: Json) returns (v: Json)
      modifies this
      ensures v == if key in old(entries) then old(entries)[key] else default
      ensures entries == old(entries) - {key}
    {
      v := if key in entries then entries[key] else default;
      entries := entries - {key};
    }
  }

  predicate IsAbsolute(path: string) {
    |path| > 0 && path[0] == '/'
  }

  /** os.path.join(a, b) on POSIX: an absolute b replaces a; otherwise b is
      appended to a, with one "/" in between unless a is empty or already
      ends with one. */
  function Join(a: string, b: string): (r: string)
    ensures IsAbsolute(b) ==> r == b
    ensures !IsAbsolute(b) ==> |a| <= |r| && r[..|a|] == a
    ensures !IsAbsolute(b) ==> |b| <= |r| <= |a| + 1 + |b| && r[|r| - |b|..] == b
    ensures !IsAbsolute(b) ==> |r| == |a| + |b| + (if a != [] && a[|a| - 1] != '/' then 1 else 0)
    ensures !IsAbsolute(b) && |r| > |a| + |b| ==> r[|a|] == '/'
  {
    if IsAbsolute(b) then b
    else if a == [] || a[|a| - 1] == '/' then a + b
    else a + "/" + b
  }

  /** extra.pop('location', '.') as os.path.join then sees it: the popped
      value must be a str, or the join raises TypeError. */
  function LocationOf(extra: map<string, Json>): (r: Result<string>)
    ensures "location" !in extra ==> r == Ok(".")
    ensures "location" in extra ==> (r.Ok? <==> extra["location"].JStr?)
    ensures r.Ok? && "location" in extra ==> r.value == extra["location"].s
    ensures r.Err? ==> "location" in extra && r.error == TypeError("expected str, bytes or os.PathLike object, not " + PyTypeName(extra["location"]))
  {
    if "location" !in extra then Ok(".")
    else match extra["location"]
      case JStr(s) => Ok(s)
      case other => Err(TypeError("expected str, bytes or os.PathLike object, not " + PyTypeName(other)))
  }

  /** The content handle a resource holds: the file opened for reading with
      its path and open options, or the imported module. */
  datatype Content = OpenFile(path: string, options: map<string, Json>) | ModuleNamespace(name: string)

  /** The foreign effects: open(path, 'r', **options) and
      importlib.import_module(name), each giving None on success or the
      exception raised. */
  datatype Env = Env(open: (string, map<string, Json>) -> Option<Error>, importModule: string -> Option<Error>)

  /** FileResourceInjestor: the joined file name and the options bag, which
      is the caller's own dict after `location` was popped from it. */
  class FileResourceInjestor {
    const filename: string
    const extras: Options

    constructor Init(filename: string, extras: Options)
      ensures this.filename == filename && this.extras == extras
    {
      this.filename := filename;
      this.extras := extras;
    }

    /** FileResourceInjestor.__init__: pops `location` (default ".") out of
        the caller's dict and joins it with the file name. The pop happens
        before the join, so the dict has lost `location` even when the join
        raises. */
    static method Create(filename: string, extra: Options) returns (r: Result<FileResourceInjestor>)
      modifies extra
      ensures extra.entries == old(extra.entries) - {"location"}
      ensures r.Ok? <==> LocationOf(old(extra.entries)).Ok?
      ensures r.Ok? ==> fresh(r.value) && r.value.extras == extra
      ensures r.Ok? ==> r.value.filename == Join(LocationOf(old(extra.entries)).value, filename)
      ensures r.Err? ==> r.error == LocationOf(old(extra.entries)).error
    {
      var location := extra.Pop("location", JStr("."));
      if !location.JStr? {
        return Err(TypeError("expected str, bytes or os.PathLike object, not " + PyTypeName(location)));
      }
      var injestor := new FileResourceInjestor.Init(Join(location.s, filename), extra);
      r := Ok(injestor);
    }

    /** FileResourceInjestor.injest: opens the file with the options left in
        the dict at this moment. */
    method Injest(env: Env) returns (r: Result<Content>)
      ensures r == OpenIn(env, filename, extras.entries)
    {
      match env.open(filename, extras.entries)
      case Some(e) => r := Err(e);
      case None => r := Ok(OpenFile(filename, extras.entries));
    }
  }

  /** What opening `path` with `options` gives. */
  function OpenIn(env: Env, path: string, options: map<string, Json>): (r: Result<Content>)
    ensures r.Ok? <==> env.open(path, options).None?
    ensures r.Ok? ==> r.value == OpenFile(path, options)
    ensures r.Err? ==> r.error == env.open(path, options).value
  {
    match env.open(path, options)
    case Some(e) => Err(e)
    case None => Ok(OpenFile(path, options))
  }

  /** ModuleResourceInjestor: imports the module when built (the options bag
      is ignored) and hands the module out as its content. */
  function ModuleContent(env: Env, name: string): (r: Result<Content>)
    ensures r.Ok? <==> env.importModule(name).None?
    ensures r.Ok? ==> r.value == ModuleNamespace(name)
    ensures r.Err? ==> r.error == env.importModule(name).value
  {
    match env.importModule(name)
    case Some(e) => Err(e)
    case None => Ok(ModuleNamespace(name))
  }

  /** Resource: an id, its kind, and the resolved content handle. */
  datatype Resource = Resource(id: int, kind: ResourceType, content: Content)

  /** One entry of the map file's `resources` object; `extra` is the
      caller's dict object when present. */
  datatype ResourceSpec = ResourceSpec(tag: Option<string>, name: Option<string>, extra: Option<Options>)

  /** The dict objects that resolving the spec may change. */
  function ExtraObjects(spec: ResourceSpec): set<Options> {
    if spec.extra.Some? then {spec.extra.value} else {}
  }

  /** spec.get('extra', {}) as entries: a missing bag is a fresh empty dict. */
  function EntriesOf(spec: ResourceSpec): map<string, Json>
    reads ExtraObjects(spec)
  {
    if spec.extra.Some? then spec.extra.value.entries else map[]
  }

  /** The options bag after resolving a spec with this tag: only the file
      injestor touches it, and it only removes `location`. */
  function ExtrasAfter(tag: Option<string>, extra: map<string, Json>): map<string, Json> {
    if ParseResourceType(tag) == Ok(File) then extra - {"location"} else extra
  }

  /** What Resource.from_spec returns for a spec whose options bag holds
      `extra` when the call starts. */
  function ResourceOutcome(id: int, tag: Option<string>, name: Option<string>, extra: map<string, Json>, env: Env): Result<Resource> {
    match ParseResourceType(tag)
    case Err(e) => Err(e)
    case Ok(kind) =>
      match Injested(kind, name, extra, env)
      case Err(e) => Err(e)
      case Ok(c) => Ok(Resource(id, kind, c))
  }

  /** What the injestor that resource_map gives for `kind` yields: the
      opened file (after `location` is popped and joined with the name) or
      the imported module. */
  function Injested(kind: ResourceType, name: Option<string>, extra: map<string, Json>, env: Env): Result<Content> {
    match ResourceMap(kind).GetOr(FileInjestor)
    case FileInjestor =>
      (match LocationOf(extra)
       case Err(e) => Err(e)
       case Ok(location) => OpenIn(env, Join(location, name.GetOr("default")), extra - {"location"}))
    case ModuleInjestor => ModuleContent(env, name.GetOr("default"))
  }

  /** Once the tag names a kind, the outcome is that kind's injested content. */
  lemma OutcomeOfKind(id: int, tag: Option<string>, name: Option<string>, extra: map<string, Json>, env: Env, kind: ResourceType)
    requires ParseResourceType(tag) == Ok(kind)
    ensures ResourceOutcome(id, tag, name, extra, env) ==
      match Injested(kind, name, extra, env)
      case Err(e) => Err(e)
      case Ok(c) => Ok(Resource(id, kind, c))
  {
  }

  /** Resource.from_spec: checks the tag, then builds the injestor for the
      kind (the file injestor pops `location` from the caller's dict) and
      takes its content. */
  method ResourceFromSpec(id: int, spec: ResourceSpec, env: Env) returns (r: Result<Resource>)
    modifies ExtraObjects(spec)
    ensures r == ResourceOutcome(id, spec.tag, spec.name, old(EntriesOf(spec)), env)
    ensures EntriesOf(spec) == ExtrasAfter(spec.tag, old(EntriesOf(spec)))
  {
    ghost var before := EntriesOf(spec);
    var kind := ParseResourceType(spec.tag);
    if kind.Err? {
      return Err(kind.error);
    }
    OutcomeOfKind(id, spec.tag, spec.name, before, env, kind.value);
    var name := spec.name.GetOr("default");
    var extras: Options;
    if spec.extra.Some? {
      extras := spec.extra.value;
    } else {
      extras := new Options(map[]);
    }
    match ResourceMap(kind.value).GetOr(FileInjestor)
    case FileInjestor =>
      assert extras.entries == before;
      var injestor := FileResourceInjestor.Create(name, extras);
      assert ExtrasAfter(spec.tag, before) == before - {"location"};
      if injestor.Err? {
        return Err(injestor.error);
      }
      var content := injestor.value.Injest(env);
      if content.Err? {
        return Err(content.error);
      }
      r := Ok(Resource(id, kind.value, content.value));
    case ModuleInjestor =>
      var content := ModuleContent(env, name);
      if content.Err? {
        return Err(content.error);
      }
      r := Ok(Resource(id, kind.value, content.value));
  }
}

/** Properties of resource resolution. */
module ResourceFacts {
  import opened PyRuntime
  import opened Resources

  /** strip() drops leading whitespace and nothing else. */
  lemma {:induction false} StripLeadingSkipsSpaces(pre: string, rest: string)
    requires forall i :: 0 <= i < |pre| ==> IsSpace(pre[i])
    requires rest == [] || !IsSpace(rest[0])
    ensures StripLeading(pre + rest) == rest
  {
    if pre != [] {
      assert (pre + rest)[1..] == pre[1..] + rest;
      StripLeadingSkipsSpaces(pre[1..], rest);
    }
  }

  /** strip() drops trailing whitespace and nothing else. */
  lemma {:induction false} StripTrailingSkipsSpaces(rest: string, post: string)
    requires forall i :: 0 <= i < |post| ==> IsSpace(post[i])
    requires rest == [] || !IsSpace(rest[|rest| - 1])
    ensures StripTrailing(rest + post) == rest
  {
    if post != [] {
      assert (rest + post)[..|rest + post| - 1] == rest + post[..|post| - 1];
      StripTrailingSkipsSpaces(rest, post[..|post| - 1]);
    }
  }

  /** A tag is matched after strip() and upper(): whitespace around it and
      the case of its letters do not matter, so " Module " names MODULE. */
  lemma ResourceTagPaddingAndCaseIgnored(pre: string, core: string, post: string, t: ResourceType)
    requires forall i :: 0 <= i < |pre| ==> IsSpace(pre[i])
    requires forall i :: 0 <= i < |post| ==> IsSpace(post[i])
    requires core != [] && !IsSpace(core[0]) && !IsSpace(core[|core| - 1])
    requires Upper(core) == ResourceTypeName(t)
    ensures NormalizeResourceTag(pre + core + post) == Upper(core)
    ensures ParseResourceType(Some(pre + core + post)) == Ok(t)
  {
    assert pre + core + post == pre + (core + post);
    StripLeadingSkipsSpaces(pre, core + post);
    StripTrailingSkipsSpaces(core, post);
    ParseByMemberName(pre + core + post, t);
  }

  /** A tag that normalises to a member's name parses to that member. */
  lemma ParseByMemberName(raw: string, t: ResourceType)
    requires NormalizeResourceTag(raw) == ResourceTypeName(t)
    ensures ParseResourceType(Some(raw)) == Ok(t)
  {
  }

  /** strip() and upper() both keep a "-". */
  lemma HyphenKeptByNormalization(raw: string)
    requires '-' in raw
    ensures '-' in NormalizeResourceTag(raw)
  {
    var stripped := Strip(raw);
    var i := StripStart(raw);
    var j :| 0 <= j < |raw| && raw[j] == '-';
    assert !IsSpace(raw[j]);
    assert i <= j < i + |stripped|;
    assert stripped[j - i] == '-';
    assert Upper(stripped)[j - i] == '-';
  }

  /** Every ResourceType has a resource_map entry, so the fallback to the
      file injestor in Resource.from_spec is never taken. */
  lemma ResourceMapFallbackUnreachable(t: ResourceType)
    ensures ResourceMap(t).Some?
    ensures ResourceMap(t).value == (if t == File then FileInjestor else ModuleInjestor)
  {
  }

  /** A resolved resource carries the given id and the parsed kind. */
  lemma ResourceKeepsIdAndKind(id: int, tag: Option<string>, name: Option<string>, extra: map<string, Json>, env: Env)
    ensures var r := ResourceOutcome(id, tag, name, extra, env);
      r.Ok? ==> r.value.id == id && ParseResourceType(tag) == Ok(r.value.kind)
  {
    var parsed := ParseResourceType(tag);
    if parsed.Ok? {
      OutcomeOfKind(id, tag, name, extra, env, parsed.value);
    }
  }

  /** The kind tag is checked before anything is opened or imported: an
      unknown tag fails the same way whatever the environment. */
  lemma TagCheckedBeforeEffects(id: int, tag: Option<string>, name: Option<string>, extra: map<string, Json>, env1: Env, env2: Env)
    requires ParseResourceType(tag).Err?
    ensures ResourceOutcome(id, tag, name, extra, env1) == ResourceOutcome(id, tag, name, extra, env2)
    ensures ResourceOutcome(id, tag, name, extra, env1) == Err(InvalidResourceError(tag.value + " is not a valid resource type"))
  {
  }

  /** A file resource is opened at os.path.join(location, name), with name
      defaulting to "default" and location to ".", and with every option
      of the bag except `location` passed on unchanged. */
  lemma FileResourcePathAndOptions(id: int, tag: Option<string>, name: Option<string>, extra: map<string, Json>, env: Env)
    requires ParseResourceType(tag) == Ok(File)
    ensures var r := ResourceOutcome(id, tag, name, extra, env);
      r.Ok? <==> LocationOf(extra).Ok? && env.open(Join(LocationOf(extra).value, name.GetOr("default")), extra - {"location"}).None?
    ensures var r := ResourceOutcome(id, tag, name, extra, env);
      r.Ok? ==> r.value.content.OpenFile? && r.value.content.path == Join(LocationOf(extra).value, name.GetOr("default"))
    ensures var r := ResourceOutcome(id, tag, name, extra, env);
      r.Ok? ==> "location" !in r.value.content.options
    ensures var r := ResourceOutcome(id, tag, name, extra, env);
      r.Ok? ==> forall k :: k in extra && k != "location" ==> k in r.value.content.options && r.value.content.options[k] == extra[k]
  {
    OutcomeOfKind(id, tag, name, extra, env, File);
  }

  /** With no `location` the file is looked up relative to ".": a relative
      name n is opened as "./n". */
  lemma DefaultLocationIsCurrentDirectory(id: int, tag: Option<string>, name: string, extra: map<string, Json>, env: Env)
    requires ParseResourceType(tag) == Ok(File) && "location" !in extra && !IsAbsolute(name)
    requires ResourceOutcome(id, tag, Some(name), extra, env).Ok?
    ensures ResourceOutcome(id, tag, Some(name), extra, env).value.content.path == "./" + name
  {
    OutcomeOfKind(id, tag, Some(name), extra, env, File);
    assert Join(".", name) == "." + "/" + name;
  }

  /** A module resource imports its name and ignores the options bag. */
  lemma ModuleResourceIgnoresExtra(id: int, tag: Option<string>, name: Option<string>, extra1: map<string, Json>, extra2: map<string, Json>, env: Env)
    requires ParseResourceType(tag) == Ok(Module)
    ensures ResourceOutcome(id, tag, name, extra1, env) == ResourceOutcome(id, tag, name, extra2, env)
    ensures ResourceOutcome(id, tag, name, extra1, env).Ok? ==>
      ResourceOutcome(id, tag, name, extra1, env).value.content == ModuleNamespace(name.GetOr("default"))
  {
    OutcomeOfKind(id, tag, name, extra1, env, Module);
    OutcomeOfKind(id, tag, name, extra2, env, Module);
  }

  /** The file injestor changes the caller's options bag by removing
      `location` only; the module injestor leaves it alone. */
  lemma ExtrasAfterRemovesOnlyLocation(tag: Option<string>, extra: map<string, Json>)
    ensures ParseResourceType(tag) == Ok(File) ==> "location" !in ExtrasAfter(tag, extra)
    ensures forall k :: k in extra && k != "location" ==> k in ExtrasAfter(tag, extra) && ExtrasAfter(tag, extra)[k] == extra[k]
    ensures ParseResourceType(tag) != Ok(File) ==> ExtrasAfter(tag, extra) == extra
  {
    var isFile := ParseResourceType(tag) == Ok(File);
    assert ExtrasAfter(tag, extra) == if isFile then extra - {"location"} else extra;
    LocationRemovedAlone(extra, ExtrasAfter(tag, extra), isFile);
  }

  /** The map facts behind ExtrasAfterRemovesOnlyLocation. */
  lemma LocationRemovedAlone(extra: map<string, Json>, after: map<string, Json>, isFile: bool)
    requires after == if isFile then extra - {"location"} else extra
    ensures isFile ==> "location" !in after
    ensures forall k :: k in extra && k != "location" ==> k in after && after[k] == extra[k]
  {
  }
}
